=== FILE: README.md ===
# URL shortener: a verified model

This project models the core of a browser-only URL shortener written in
TypeScript and React. Its parts:

- **The URL service.** It keeps every short link in one browser storage slot,
  as an array of records. Each record holds:
  - the original URL and its shortcode
  - creation and expiry instants
  - the list of clicks
  - an `isExpired` flag, recomputed every time the array is loaded
- **Creation.** A request is turned into a record. The shortcode is either the
  caller's own custom code or a random 6-character code that collides with no
  stored record.
- **The redirect resolver.** It looks a shortcode up. For a live record it
  records a click and redirects; otherwise it shows one of four errors.
- **The creation form.** It holds up to five forms, validates each one, and
  submits all of them in one batch.
- **The statistics dashboard.** It shows a status chip per record ("12m left",
  "3h left" or "Expired", with a colour), expandable click histories, and the
  totals.

The model has eight modules, one file each:

| file | module | models |
|---|---|---|
| `types.dfy` | `Types` | the records (`UrlData`, `ClickData`, `CreateUrlRequest`), time as integer milliseconds |
| `text.dfy` | `Text` | decimal rendering of numbers, the white space `trim()` removes |
| `host.dfy` | `Host` | the browser facilities the core calls but does not define: the URL parser, `Math.random`, number parsing |
| `url_service.dfy` | `UrlService` | the service; the storage slot is the `records` field of class `UrlStore` |
| `redirect_handler.dfy` | `RedirectHandler` | `handleRedirect` on class `Handler` (`loading`, `error`, `redirectUrl`), and the render's view choice |
| `url_shortener.dfy` | `UrlShortener` | class `Shortener`: add, remove and update a form, `validateForm`, the `handleSubmit` loop |
| `statistics.dfy` | `Statistics` | status text and colour, class `Dashboard` with the expanded-row set and the load |
| `app_routes.dfy` | `AppRoutes` | the router's check that sends a path to the redirect resolver |

Each operation is specified in one of two ways:

- **Operations that change state** are methods on a class. Their `ensures`
  give the new state in terms of a specification function of the old state.
- **Pure computations** are functions. Their lemmas state what the source
  promises: for example, that shortcodes stay unique, that every non-blank
  form yields exactly one result or one error, in form order, and that a
  status text in minutes always comes with the 'warning' colour.

Time is passed in as a parameter wherever the source reads the clock.
Where the source reads the clock more than once in one step, the model takes
one parameter per reading.

## Model

| member | source | states |
|---|---|---|
| Text.DecimalRoundTrip | src/components/UrlShortener.tsx:90 | the decimal text used for the form number `i + 1` reads back as that number |
| Text.IntToDecimal | src/components/Statistics.tsx:94-96 | `${n}` for a count of minutes or hours: a non-empty text that starts with '-' iff the count is negative, digits otherwise |
| Text.IntDecimalRoundTrip | src/components/Statistics.tsx:94-96 | the digits of `${n}`, after the '-' of a negative count, read back as its absolute value |
| Text.Trim | src/components/UrlShortener.tsx:54 | `trim()` returns a string no longer than its input |
| Text.BlankIffTrimmedEmpty | src/components/UrlShortener.tsx:86 | the model's blank test, every character white space, holds iff `trim()` leaves the empty string |
| Host.ValidUrlIsNotBlank | src/utils/urlService.ts:16-23 | a string the URL parser accepts is never blank, so "URL is required" and "Invalid URL format" never compete |
| UrlService.AlphanumericRunIff | src/utils/urlService.ts:26 | the regular expression `^[a-zA-Z0-9]+$` matches exactly the non-empty strings of ASCII letters and digits |
| UrlService.ValidShortcodeIff | src/utils/urlService.ts:25-27 | a shortcode is valid iff it has 3 to 10 characters, each an ASCII letter or digit |
| UrlService.AlphabetRanges | src/utils/urlService.ts:8 | the generator's alphabet is a–z, then A–Z, then 0–9 |
| UrlService.AlphabetIsAlphanumeric | src/utils/urlService.ts:8 | every character of the alphabet is an ASCII letter or digit |
| UrlService.AlphanumericInAlphabet | src/utils/urlService.ts:8 | every ASCII letter or digit is in the alphabet |
| UrlService.AlphabetIsPatternClass | src/utils/urlService.ts:8 | the alphabet holds exactly the characters the shortcode pattern accepts |
| UrlService.PickChar | src/utils/urlService.ts:11 | `charAt(floor(r · 62))` for a draw r in [0, 1) is always in range and an alphanumeric character of the alphabet |
| UrlService.CodeOf | src/utils/urlService.ts:7-14 | six draws spell a code of length 6 that passes isValidShortcode |
| UrlService.GenerateShortCode | src/utils/urlService.ts:7-14 | the loop builds a 6-character code drawn from the alphabet, one character per draw, in draw order |
| UrlService.Refreshed | src/utils/urlService.ts:34-43 | a load keeps every field except isExpired, which becomes `now > expiresAt` |
| UrlService.RefreshedTwice | src/utils/urlService.ts:42 | isExpired depends only on the last load: loading again at t2 overrides a load at t1 |
| UrlService.FindIndex | src/utils/urlService.ts:129 | findIndex gives no index iff no record has the code; otherwise the index of the first record with it |
| UrlService.FindIndexRefreshed | src/utils/urlService.ts:128-129 | loading does not change which record is the first match |
| UrlService.FindIndexUnique | src/utils/urlService.ts:114 | the first match is unique |
| UrlService.LookUp | src/utils/urlService.ts:112-123 | getUrlByShortCode gives null iff no record has the code, else the first such record as loaded now |
| UrlService.ValidityOf | src/utils/urlService.ts:90 | the effective validity is the given value whenever one is given and is not 0, and 30 when none or 0 is given; it is never 0 |
| UrlService.FreshCode | src/utils/urlService.ts:85-87 | the retry loop's code is valid, 6 characters long and held by no loaded record, and it consumes at least one attempt of draws |
| UrlService.NewRecord | src/utils/urlService.ts:94-103 | the new record holds the request's URL and the settled code, the prefix plus the code as short URL, the clock reading as creation time and its decimal text as id, expiry the effective validity in minutes after creation, no clicks, not expired |
| UrlService.CreateOutcome | src/utils/urlService.ts:62-110 | a created record has a URL the parser accepts and a valid code that no loaded record holds; no more draws are used than supplied |
| UrlService.Message | src/utils/urlService.ts:65-88 | the text of each thrown Error ('Invalid URL format', 'Shortcode must be 3-10 alphanumeric characters', 'Shortcode already exists') is non-empty |
| UrlService.MessageNamesError | src/utils/urlService.ts:65-88 | the errors have pairwise different messages, so the text shown after `Form {i + 1}: ` names the error |
| UrlService.CreateErrors | src/utils/urlService.ts:65-88 | each of the thrown errors occurs exactly under its condition, in the order the source checks them |
| UrlService.CreateSuccess | src/utils/urlService.ts:90-103 | a created record keeps the URL; its code is valid and new (the custom code when one is given, else 6 characters); its short URL is the prefix plus the code; it has no clicks, is not expired, and expires the effective validity (30 when none or 0 is given) in minutes after creation |
| UrlService.CreateKeepsCodesDistinct | src/utils/urlService.ts:72-106 | appending a created record keeps the stored shortcodes pairwise distinct |
| UrlService.ExpiryScenario | src/utils/urlService.ts:90-92 | with validity at least one minute, a new record is live when created, live up to its expiry instant, and expired after it |
| UrlService.ExpiresAfterCreationIff | src/utils/urlService.ts:90-92 | expiry lies after creation iff the effective validity is positive; the effective validity is never 0 |
| UrlService.NewClick | src/utils/urlService.ts:143-148 | the logged click has the clock reading as timestamp, the given user agent and the location 'Unknown'; its source is the referrer when that is non-empty and 'Direct' otherwise, never empty |
| UrlService.ClickAccepted | src/utils/urlService.ts:129-141 | recordClick's test passes iff a record has the code and the first such record has `now <= expiresAt` |
| UrlService.WithClick | src/utils/urlService.ts:150 | pushing a click changes only that record's click list, which gains exactly that click at its end |
| UrlService.WithClickKeepsCodesDistinct | src/utils/urlService.ts:150-151 | recording a click keeps the shortcodes pairwise distinct |
| UrlService.ActiveExpiredPartition | src/utils/urlService.ts:161 | the active filter and the expired records split the loaded array: the counts add up to its length |
| UrlService.StatisticsOf | src/utils/urlService.ts:157-171 | totalUrls is the record count and totalClicks the sum of click counts; activeUrls counts the unexpired records; expiredUrls, computed as total − active, is exactly the number of expired ones |
| UrlService.LoadedCounts | src/utils/urlService.ts:158-161 | after a load the click total is unchanged and the active records are exactly those whose expiry is not before the load time |
| UrlService.AppendCounts | src/utils/urlService.ts:160 | appending a record adds its clicks to the total and adds one live record if it is live |
| UrlService.WithClickCounts | src/utils/urlService.ts:150 | a pushed click adds one to the click total and changes no expiry |
| UrlService.UrlStore.constructor | src/utils/urlService.ts:31-32 | an empty slot loads as no records |
| UrlService.UrlStore.GetAllUrls | src/utils/urlService.ts:29-51 | getAllUrls returns the stored records, each with isExpired recomputed |
| UrlService.UrlStore.GetUrlByShortCode | src/utils/urlService.ts:112-123 | null iff the slot holds no record with the code, else the first such record with isExpired recomputed now |
| UrlService.UrlStore.CreateShortUrl | src/utils/urlService.ts:62-110 | returns the outcome above; on an error the slot is unchanged; on success the slot is the loaded records plus the returned record; distinct codes are preserved |
| UrlService.UrlStore.RecordClick | src/utils/urlService.ts:125-155 | returns true iff a record has the code and the first one has `now <= expiresAt`; on false nothing changes; on true exactly one click is appended to that record; distinct codes are preserved |
| UrlService.UrlStore.GetStatistics | src/utils/urlService.ts:157-171 | totals over the stored records; active counts records live at `now`; active + expired = total |
| UrlService.StatsAfterCreate | src/utils/urlService.ts:157-171 | after a create at the same instant: one more record, the same click total, one more active record if the new one is live |
| UrlService.StatsAfterClick | src/utils/urlService.ts:157-171 | after a recorded click at the same instant: the same record and active counts, one more click |
| RedirectHandler.Decide | src/components/RedirectHandler.tsx:14-55 | the handler ends in one of its four messages or in a redirect, and a redirect only for a non-empty code whose click recordClick accepts |
| RedirectHandler.RedirectIff | src/components/RedirectHandler.tsx:14-55 | a redirect happens iff the code is non-empty and its first record is live at all three clock readings; it targets exactly that record's original URL |
| RedirectHandler.ErrorCauses | src/components/RedirectHandler.tsx:14-55 | each of the four errors is shown iff its cause holds: no code, no record, expired at the lookup or at the check, or expired only by the time of recordClick |
| RedirectHandler.SameInstantNeverFailsClick | src/components/RedirectHandler.tsx:32-54 | with one clock reading, 'Failed to process redirect' is never shown |
| RedirectHandler.ViewOf | src/components/RedirectHandler.tsx:60-143 | the redirect notice shows only for a set target and names it; the error view shows the stored message and only when not loading and no target is set; the fallback navigation home only when nothing is set |
| RedirectHandler.ViewPrecedence | src/components/RedirectHandler.tsx:60-143 | the spinner shows iff loading and no redirect target is set; a redirect target wins over an error |
| RedirectHandler.Handler.constructor | src/components/RedirectHandler.tsx:9-11 | mounts loading, with no error and no target |
| RedirectHandler.Handler.HandleRedirect | src/components/RedirectHandler.tsx:14-55 | every error path sets the error, clears loading and saves nothing; the redirect path sets the target and saves exactly the one click; from a fresh mount exactly one of error and target is set, and the rendered view follows the decision |
| UrlShortener.WithField | src/components/UrlShortener.tsx:49 | updating a field sets it and leaves the other fields |
| UrlShortener.WithoutIndex | src/components/UrlShortener.tsx:43 | filtering out an index removes one form when the index names one, none otherwise |
| UrlShortener.WithoutIndexDropsOne | src/components/UrlShortener.tsx:43 | the filter removes exactly the form at the index and keeps the others in order; an index naming no form changes nothing |
| UrlShortener.ValidateForm | src/components/UrlShortener.tsx:53-71 | the result is one of the four messages or null, and null only for a non-blank URL the parser accepts |
| UrlShortener.ValidateFormOrder | src/components/UrlShortener.tsx:53-71 | each message is returned iff its check fails and every earlier check passes; null iff all checks pass |
| UrlShortener.RequestOf | src/components/UrlShortener.tsx:95-99 | the request keeps the URL; a custom code is passed iff the field is non-empty; a validity is passed iff the field is non-empty |
| UrlShortener.ValidatedRequest | src/components/UrlShortener.tsx:95-99 | a validated form's request is never rejected for its URL or for its shortcode's format (a duplicate custom code can still be); an empty shortcode means a generated code; an empty validity means 30 minutes; a digit string whose value is at most 2^53 − 1 means that value, which is positive |
| UrlShortener.FormError | src/components/UrlShortener.tsx:90 | the message is the head `Form {i + 1}: ` followed by the given text |
| UrlShortener.FormPrefixUnique | src/components/UrlShortener.tsx:90 | a message starts with the head `Form {i + 1}: ` of one form only, so each message names exactly one form |
| UrlShortener.SubmitStep | src/components/UrlShortener.tsx:84-108 | a blank form changes nothing; a form failing validation adds exactly its `Form {i + 1}: ` message; no more draws are used than supplied |
| UrlShortener.SubmitStepOutcome | src/components/UrlShortener.tsx:86-108 | a non-blank form adds exactly one entry: a message headed `Form {i + 1}: ` with the results unchanged, or one record of its own URL with the errors unchanged |
| UrlShortener.SubmitForms | src/components/UrlShortener.tsx:83-109 | the loop over the first n forms uses no more draws than supplied |
| UrlShortener.SubmitAccounts | src/components/UrlShortener.tsx:83-109 | earlier entries stay in front, so no failure stops later forms; every non-blank form adds exactly one entry, an error or a result, and blank forms none; the new results and errors come in form order; the j-th new result is a record of its form's URL and the j-th new message is headed with its form's number |
| UrlShortener.SlotStep | src/components/UrlShortener.tsx:94-102 | one turn adds to the slot exactly the record it adds to the results and keeps the slot's codes distinct |
| UrlShortener.SubmitSlot | src/components/UrlShortener.tsx:83-109 | over the loop the slot gains exactly the codes of the new results, in form order, and keeps its codes distinct |
| UrlShortener.SubmitResultsFresh | src/components/UrlShortener.tsx:94-102 | every created result has a valid code, no clicks, the batch's creation time and is not expired |
| UrlShortener.Shortener.constructor | src/components/UrlShortener.tsx:28-33 | one empty form, no results, no errors, not loading |
| UrlShortener.Shortener.AddForm | src/components/UrlShortener.tsx:35-40 | adds an empty form only below five forms, so at most five forms exist |
| UrlShortener.Shortener.RemoveForm | src/components/UrlShortener.tsx:42-45 | the forms without the one at the index, the rest in order |
| UrlShortener.Shortener.UpdateForm | src/components/UrlShortener.tsx:47-51 | one field of one form changes; every other form is unchanged |
| UrlShortener.Shortener.HandleSubmit | src/components/UrlShortener.tsx:73-119 | errors, results and slot are those of the loop over all forms; their counts add up to the non-blank forms; results are fresh; distinct codes are preserved; loading ends |
| Statistics.FloorOfQuotient | src/components/Statistics.tsx:92 | `Math.floor(x / d)` on the exact quotient equals integer floor division |
| Statistics.StatusColorOf | src/components/Statistics.tsx:78-86 | 'error' iff marked expired; otherwise 'warning' iff less than 3 600 000 ms remain |
| Statistics.MinutesLeft | src/components/Statistics.tsx:90-92 | the whole minutes m with m minutes ≤ time left < m + 1 minutes |
| Statistics.HoursFromMinutes | src/components/Statistics.tsx:95 | from 60 whole minutes on, `Math.floor(m / 60)` is a count h ≥ 1 with h hours ≤ time left < h + 1 hours |
| Statistics.StatusText | src/components/Statistics.tsx:88-97 | the text is 'Expired' or ends in `m left` or `h left` |
| Statistics.StatusTextCases | src/components/Statistics.tsx:88-97 | 'Expired' iff marked expired; otherwise `{m}m left` below one hour; from one hour on, `{h}h left` with h ≥ 1 and h hours ≤ time left < h + 1 hours |
| Statistics.MinutesIffUnderAnHour | src/components/Statistics.tsx:88-97 | for a record not marked expired, the text is in minutes iff less than one hour is left at its reading |
| Statistics.WarningIffMinutes | src/components/Statistics.tsx:205-207 | the chip reads the clock for its text and then for its colour; a text in minutes always comes with 'warning', and with one reading for both the colour is 'warning' iff the text is in minutes |
| Statistics.SplitReadingsDisagree | src/components/Statistics.tsx:78-97 | across two readings the converse fails: exactly one hour left gives '1h left', and one millisecond later the colour is 'warning' |
| Statistics.Toggled | src/components/Statistics.tsx:64-69 | the toggled id's membership flips; every other id's membership is kept |
| Statistics.ToggleTwice | src/components/Statistics.tsx:63-70 | toggling the same row twice restores the set |
| Statistics.Dashboard.constructor | src/components/Statistics.tsx:33-40 | no rows, zero totals, nothing expanded |
| Statistics.Dashboard.LoadData | src/components/Statistics.tsx:46-61 | rows and totals come from their own loads; active + expired equals the row count |
| Statistics.Dashboard.ToggleRowExpansion | src/components/Statistics.tsx:63-72 | the expanded set becomes the toggled set; rows and totals are unchanged |
| AppRoutes.PageFor | src/App.tsx:141 | the redirect resolver is chosen iff the segment is a non-empty run of ASCII letters and digits |
| AppRoutes.ValidCodesReachResolver | src/App.tsx:141 | every valid shortcode is routed to the resolver |
| AppRoutes.CreatedCodeReachesResolver | src/App.tsx:141 | every created record's code is routed to the resolver |
| AppRoutes.RoutedCodeIsNeverInvalid | src/App.tsx:141 | behind the router the resolver never shows 'Invalid short URL' |

## Left out

Not modelled, and why:

- **Browser storage and JSON.** `localStorage` and the JSON (de)serialisation in `getAllUrls` and `saveUrls` are I/O. The slot is the `records` field. A failed read, which yields `[]`, and a failed save, which is swallowed, are not modelled.
- **The URL parser behind `isValidUrl`.** It is a browser facility. It is a parameter whose only stated property is that an accepted string contains a ':'.
- **`Math.random`.** Its values are a finite sequence of draws in [0, 1) passed in by the caller, six per generation attempt.
- **Number parsing (`Number`, `Number.isInteger`, `parseInt`).** These are parameters. They agree with the decimal value on digit strings whose value is at most `Number.MAX_SAFE_INTEGER` (2^53 − 1) and are unconstrained elsewhere. Rounding of larger values, `Infinity` for very long digit strings, fractional input, exponents and NaN are not modelled.
- **Clock readings within one service operation.** `getAllUrls`, `new Date()` and `Date.now()` inside one operation are taken as a single reading. The record id is the decimal text of that reading. Ids are not claimed to be unique.
- **Clock readings within one batch.** All forms of one `handleSubmit` batch are created at one reading.
- **`document.referrer` and `navigator.userAgent`.** These are plain string parameters. The location is the constant "Unknown".
- **UI and I/O without logic.** This covers:
  - `setTimeout` and `window.location`
  - the clipboard
  - `toLocaleString`
  - the JSX markup
  - the logger (src/utils/logger.ts)
- **The rest of src/App.tsx.** Only its route check is modelled.
- **Concurrency.** Two tabs sharing one storage slot, and state updates racing in React, are not modelled.
- **Expiry after creation.** The service does not ensure that a record expires after its creation: it accepts any validity the caller passes, and only the form guarantees a positive one, for digit strings. `UrlService.ExpiresAfterCreationIff` states when the expiry lies after creation.
- **Stored `isExpired` flags.** Every save writes back the loaded array, so the stored flags are the values computed at the last load, not a fixed state.
- UrlService.UrlStore.CreateShortUrl: the source retries without bound until a generated code is unused. The model retries only while draws remain. When they run out it returns `CodesExhausted`, an outcome the source does not have. Its message is not one the source produces.
- UrlService.FreshCode: the same bound applies. `None` means the supplied draws ran out before an unused code appeared.
- Statistics.StatusColorOf: JavaScript divides in binary64; the model takes the quotient as exact. For integer milliseconds with a time left below 2^53 in size the comparisons come out the same. Statistics.MinutesLeft and Statistics.HoursFromMinutes take `Math.floor` of the exact quotient in the same way.
- UrlService.UrlStore.GetAllUrls: the source's `Date` objects are integer milliseconds, so invalid dates (NaN) are not modelled.
- UrlService.NewRecord: the expiry `now + validity · 60 000` is taken as an unbounded integer. In the source a sum above 8.64·10^15 ms (a validity of about 1.44·10^11 minutes or more, such as the form's accepted "200000000000") gives an Invalid Date, which JSON saves as `null` and the next load reads back as the epoch, so from then on the record counts as expired everywhere. The model instead keeps such a record live until its (huge) expiry instant.
- UrlService.CreateSuccess: its expiry clause has the same unbounded arithmetic as `UrlService.NewRecord`, so it does not capture the Invalid Date case.
- UrlService.ExpiryScenario: the same; for a validity that large the source's record is expired from its next load on, while the model's stays live.
- UrlShortener.ValidatedRequest: a safe digit string is mapped to its value even where the resulting expiry would be an Invalid Date in the source, as under `UrlService.NewRecord`.
- UrlService.ValidityOf: a NaN validity, which the source maps to 30 because it is falsy, cannot be expressed. Validity is an integer.
- RedirectHandler.Handler.HandleRedirect: the effect is taken as one synchronous run. A shortcode change during a run, which would start another run, is not modelled.

=== FILE: app_routes.dfy ===
/** The one decision the router makes (src/App.tsx): a path segment that is a
    non-empty run of ASCII letters and digits is handed to the redirect
    resolver, anything else shows the main application. */
module AppRoutes {
  import opened Types
  import opened Host
  import opened UrlService
  import opened RedirectHandler

  datatype Page = RedirectPage | MainPage

  /** RedirectRoute: `shortCode && /^[a-zA-Z0-9]+$/.test(shortCode)`. */
  function PageFor(shortCode: Option<string>): (p: Page)
    ensures p == RedirectPage <==>
      shortCode.Some? && |shortCode.value| >= 1
      && forall i :: 0 <= i < |shortCode.value| ==> IsAlphanumeric(shortCode.value[i])
  {
    if shortCode.None? then MainPage
    else
      AlphanumericRunIff(shortCode.value);
      if Truthy(shortCode) && MatchesAlphanumericRun(shortCode.value) then RedirectPage else MainPage
  }

  /** Every code the service accepts or generates, custom or random, is
      routed to the redirect resolver. */
  lemma ValidCodesReachResolver(code: string)
    requires IsValidShortcode(code)
    ensures PageFor(Some(code)) == RedirectPage
  {
  }

  /** A created record's code is routed to the redirect resolver. */
  lemma CreatedCodeReachesResolver(existing: seq<UrlData>, req: CreateUrlRequest, now: Millis,
                                   isValidUrl: UrlSyntax, draws: seq<Draw>)
    requires CreateOutcome(existing, req, now, isValidUrl, draws).0.Ok?
    ensures PageFor(Some(CreateOutcome(existing, req, now, isValidUrl, draws).0.value.shortCode)) == RedirectPage
  {
    CreateSuccess(existing, req, now, isValidUrl, draws);
  }

  /** Behind the router the resolver never shows 'Invalid short URL'. */
  lemma RoutedCodeIsNeverInvalid(rs: seq<UrlData>, shortCode: Option<string>,
                                 lookupNow: Millis, checkNow: Millis, clickNow: Millis)
    requires PageFor(shortCode) == RedirectPage
    ensures Decide(rs, shortCode, lookupNow, checkNow, clickNow) != ShowError(InvalidShortUrl)
  {
    ErrorCauses(rs, shortCode, lookupNow, checkNow, clickNow);
  }
}

=== FILE: host.dfy ===
/** What the browser supplies and the model cannot see into: the WHATWG URL
    parser behind `new URL(...)`, the values of Math.random(), and JavaScript's
    number parsing. Each is an argument whose type carries the one fact the
    model relies on. */
module Host {
  import opened Text

  /** UrlService.isValidUrl: `new URL(s)` does not throw. An absolute URL always
      has a scheme followed by ':', so no string without one is accepted. */
  type UrlSyntax = f: string -> bool | AcceptsOnlyWithColon(f)
    witness (s: string) => false

  ghost predicate AcceptsOnlyWithColon(f: string -> bool) {
    forall s {:trigger f(s)} :: f(s) ==> ':' in s
  }

  /** One value of Math.random(). */
  type Draw = r: real | 0.0 <= r < 1.0

  /** Number.MAX_SAFE_INTEGER, 2^53 - 1: every integer up to it is a binary64
      value, so `Number` and `parseInt` read a digit string with a value up to
      it exactly. Longer digit strings round, or become Infinity. */
  const MaxSafeInteger: int := 9007199254740991

  /** A plain decimal digit string whose value is read exactly. */
  predicate IsSafeDigits(s: string) {
    IsDecimalDigits(s) && DecimalValue(s) <= MaxSafeInteger
  }

  /** `Number.isInteger(Number(s)) && Number(s) > 0`. On a digit string with
      a safe value it holds exactly when the value is positive. */
  type PositiveIntegerTest = f: string -> bool | TestsDigitsByValue(f)
    witness (s: string) => IsDecimalDigits(s) && DecimalValue(s) > 0

  ghost predicate TestsDigitsByValue(f: string -> bool) {
    forall s {:trigger f(s)} :: IsSafeDigits(s) ==> (f(s) <==> DecimalValue(s) > 0)
  }

  /** `parseInt(s)`. On a digit string with a safe value it gives that value. */
  type IntParser = f: string -> int | ParsesDigitsByValue(f)
    witness (s: string) => if IsDecimalDigits(s) then DecimalValue(s) else 0

  ghost predicate ParsesDigitsByValue(f: string -> int) {
    forall s {:trigger f(s)} :: IsSafeDigits(s) ==> f(s) == DecimalValue(s)
  }

  /** The three pure built-ins the URL form uses. */
  datatype Builtins = Builtins(
    isValidUrl: UrlSyntax,
    isPositiveInteger: PositiveIntegerTest,
    parseInt: IntParser)

  /** An accepted URL is never blank, so the form's "URL is required" check
      and the service's URL check never both reject the same field value. */
  lemma ValidUrlIsNotBlank(isValidUrl: UrlSyntax, s: string)
    requires isValidUrl(s)
    ensures !IsBlank(s) && s != []
  {
    var i :| 0 <= i < |s| && s[i] == ':';
    assert !IsJsWhitespace(s[i]);
  }
}

=== FILE: redirect_handler.dfy ===
/** The redirect resolver (src/components/RedirectHandler.tsx): resolves the
    shortcode of the current route, records a click for a live record and
    redirects to its original URL, or shows one of four errors. The component
    state is the three fields `loading`, `error` and `redirectUrl`. */
module RedirectHandler {
  import opened Types
  import opened UrlService

  const InvalidShortUrl: string := "Invalid short URL"
  const NotFound: string := "Short URL not found"
  const ExpiredUrl: string := "This short URL has expired"
  const RedirectFailed: string := "Failed to process redirect"

  /** Where handleRedirect ends: an error shown, or a redirect to a URL. */
  datatype Outcome = ShowError(message: string) | Redirect(url: string)

  /** The decision handleRedirect takes over the stored records. Three clock
      readings take part: the lookup's load (lookupNow), the handler's own
      expiry test (checkNow) and recordClick's (clickNow). */
  function Decide(rs: seq<UrlData>, shortCode: Option<string>,
                  lookupNow: Millis, checkNow: Millis, clickNow: Millis): (o: Outcome)
    ensures o.ShowError? ==> o.message in {InvalidShortUrl, NotFound, ExpiredUrl, RedirectFailed}
    ensures o.Redirect? ==> Truthy(shortCode) && ClickAccepted(rs, shortCode.value, clickNow)
  {
    if !Truthy(shortCode) then ShowError(InvalidShortUrl)
    else
      match LookUp(rs, shortCode.value, lookupNow)
      case None => ShowError(NotFound)
      case Some(url) =>
        if url.isExpired || checkNow > url.expiresAt then ShowError(ExpiredUrl)
        else if ClickAccepted(rs, shortCode.value, clickNow) then Redirect(url.originalUrl)
        else ShowError(RedirectFailed)
  }

  /** A redirect happens exactly for a non-empty code whose first record is
      live at all three readings, and it goes to that record's original URL. */
  lemma RedirectIff(rs: seq<UrlData>, shortCode: Option<string>,
                    lookupNow: Millis, checkNow: Millis, clickNow: Millis, u: string)
    ensures Decide(rs, shortCode, lookupNow, checkNow, clickNow) == Redirect(u) <==>
      && Truthy(shortCode)
      && FindIndex(rs, shortCode.value).Some?
      && var i := FindIndex(rs, shortCode.value).value;
         && lookupNow <= rs[i].expiresAt && checkNow <= rs[i].expiresAt && clickNow <= rs[i].expiresAt
         && u == rs[i].originalUrl
  {
    if Truthy(shortCode) {
      var code := shortCode.value;
      match FindIndex(rs, code)
      case None =>
      case Some(i) =>
        var url := LookUp(rs, code, lookupNow).value;
        var k :| IsFirstMatch(rs, code, k) && url == rs[k].(isExpired := lookupNow > rs[k].expiresAt);
        FindIndexUnique(rs, code, i, k);
    }
  }

  /** The four errors and what leads to each. */
  lemma ErrorCauses(rs: seq<UrlData>, shortCode: Option<string>,
                    lookupNow: Millis, checkNow: Millis, clickNow: Millis)
    ensures var o := Decide(rs, shortCode, lookupNow, checkNow, clickNow);
      && (o == ShowError(InvalidShortUrl) <==> !Truthy(shortCode))
      && (o == ShowError(NotFound) <==> Truthy(shortCode) && !HasCode(rs, shortCode.value))
      && (o == ShowError(ExpiredUrl) <==>
            (Truthy(shortCode) && FindIndex(rs, shortCode.value).Some?
             && var i := FindIndex(rs, shortCode.value).value;
                lookupNow > rs[i].expiresAt || checkNow > rs[i].expiresAt))
      && (o == ShowError(RedirectFailed) <==>
            (Truthy(shortCode) && FindIndex(rs, shortCode.value).Some?
             && var i := FindIndex(rs, shortCode.value).value;
                lookupNow <= rs[i].expiresAt && checkNow <= rs[i].expiresAt && clickNow > rs[i].expiresAt))
  {
    if Truthy(shortCode) {
      var code := shortCode.value;
      match FindIndex(rs, code)
      case None =>
      case Some(i) =>
        var url := LookUp(rs, code, lookupNow).value;
        var k :| IsFirstMatch(rs, code, k) && url == rs[k].(isExpired := lookupNow > rs[k].expiresAt);
        FindIndexUnique(rs, code, i, k);
    }
  }

  /** 'Failed to process redirect' needs the clock to pass the expiry between
      the handler's test and recordClick's; with one reading it never shows. */
  lemma SameInstantNeverFailsClick(rs: seq<UrlData>, shortCode: Option<string>, now: Millis)
    ensures Decide(rs, shortCode, now, now, now) != ShowError(RedirectFailed)
  {
    ErrorCauses(rs, shortCode, now, now, now);
  }

  /** What the render shows. */
  datatype View = LoadingView | RedirectingView(url: string) | ErrorView(message: string) | NavigateHome

  /** The render's branches: the spinner while loading without a redirect
      target, then the redirect notice, then the error, else back home. */
  function ViewOf(loading: bool, error: Option<string>, redirectUrl: Option<string>): (v: View)
    ensures v.RedirectingView? ==> Truthy(redirectUrl) && v.url == redirectUrl.value
    ensures v.ErrorView? ==> !loading && !Truthy(redirectUrl) && Truthy(error) && v.message == error.value
    ensures v == NavigateHome ==> !loading && !Truthy(redirectUrl) && !Truthy(error)
  {
    if loading && !Truthy(redirectUrl) then LoadingView
    else if Truthy(redirectUrl) then RedirectingView(redirectUrl.value)
    else if Truthy(error) then ErrorView(error.value)
    else NavigateHome
  }

  /** The spinner shows exactly while loading without a redirect target; a
      redirect target wins over an error. */
  lemma ViewPrecedence(loading: bool, error: Option<string>, redirectUrl: Option<string>)
    ensures ViewOf(loading, error, redirectUrl) == LoadingView <==> loading && !Truthy(redirectUrl)
    ensures Truthy(redirectUrl) ==> ViewOf(loading, error, redirectUrl) == RedirectingView(redirectUrl.value)
    ensures !loading && !Truthy(redirectUrl) && Truthy(error) ==>
      ViewOf(loading, error, redirectUrl) == ErrorView(error.value)
  {
  }

  /** The component's state. */
  class Handler {
    var loading: bool
    var error: Option<string>
    var redirectUrl: Option<string>

    /** The state the component mounts with. */
    constructor()
      ensures loading && error == None && redirectUrl == None
    {
      loading := true;
      error := None;
      redirectUrl := None;
    }

    /** handleRedirect. Every error path sets the error and clears loading and
        saves nothing; the redirect path sets the target and saves the click.
        Run on a freshly mounted component it sets exactly one of error and
        redirectUrl, and the view follows. */
    method HandleRedirect(store: UrlStore, shortCode: Option<string>,
                          lookupNow: Millis, checkNow: Millis, clickNow: Millis,
                          referrer: string, userAgent: string)
      modifies this, store
      ensures var o := Decide(old(store.records), shortCode, lookupNow, checkNow, clickNow);
        match o
        case ShowError(m) =>
          && error == Some(m) && !loading && redirectUrl == old(redirectUrl)
          && store.records == old(store.records)
        case Redirect(u) =>
          && redirectUrl == Some(u) && error == old(error) && loading == old(loading)
          && store.records == WithClick(Refreshed(old(store.records), clickNow),
                                        FindIndex(old(store.records), shortCode.value).value,
                                        NewClick(clickNow, referrer, userAgent))
      ensures old(error) == None && old(redirectUrl) == None ==> (error.Some? <==> redirectUrl.None?)
      ensures old(loading) && old(error) == None && old(redirectUrl) == None ==>
        ViewOf(loading, error, redirectUrl) ==
          match Decide(old(store.records), shortCode, lookupNow, checkNow, clickNow)
          case ShowError(m) => ErrorView(m)
          case Redirect(u) => if u == "" then LoadingView else RedirectingView(u)
    {
      if !Truthy(shortCode) {
        error := Some(InvalidShortUrl);
        loading := false;
        return;
      }
      var code := shortCode.value;
      var url := store.GetUrlByShortCode(code, lookupNow);
      if url.None? {
        error := Some(NotFound);
        loading := false;
        return;
      }
      if url.value.isExpired || checkNow > url.value.expiresAt {
        error := Some(ExpiredUrl);
        loading := false;
        return;
      }
      var clickRecorded := store.RecordClick(code, clickNow, referrer, userAgent);
      if clickRecorded {
        redirectUrl := Some(url.value.originalUrl);
      } else {
        error := Some(RedirectFailed);
        loading := false;
      }
    }
  }
}

=== FILE: statistics.dfy ===
/** The statistics dashboard (src/components/Statistics.tsx): the status chip
    of each row (its text and its colour), the set of rows whose click history
    is expanded, and the load of the table and the totals. */
module Statistics {
  import opened Types
  import opened Text
  import opened UrlService

  /** The chip colours, MUI's 'error', 'warning' and 'success' in that order. */
  datatype StatusColor = ErrorColor | WarningColor | SuccessColor

  /** Math.floor(x / d), taken on the exact quotient, agrees with integer
      floor division. */
  lemma FloorOfQuotient(x: int, d: int)
    requires d > 0
    ensures ((x as real) / (d as real)).Floor == x / d
  {
    var q, r := x / d, x % d;
    assert x == q * d + r;
    assert (x as real) == (q as real) * (d as real) + (r as real);
    assert (x as real) / (d as real) == (q as real) + (r as real) / (d as real);
    assert 0.0 <= (r as real) / (d as real) < 1.0;
  }

  /** getStatusColor at clock reading `now`: 'error' for a record marked
      expired, else 'warning' while less than one hour (the exact quotient of
      the time left by an hour below 1) remains, else 'success'. */
  function StatusColorOf(url: UrlData, now: Millis): (c: StatusColor)
    ensures c == ErrorColor <==> url.isExpired
    ensures !url.isExpired ==> (c == WarningColor <==> url.expiresAt - now < MillisPerHour)
  {
    if url.isExpired then ErrorColor
    else
      var timeLeft := url.expiresAt - now;
      var hoursLeft := (timeLeft as real) / (MillisPerHour as real);
      if hoursLeft < 1.0 then WarningColor else SuccessColor
  }

  /** Whole minutes left, `Math.floor(timeLeft / (1000 * 60))`. */
  function MinutesLeft(url: UrlData, now: Millis): (m: int)
    ensures m == (url.expiresAt - now) / MillisPerMinute
    ensures m * MillisPerMinute <= url.expiresAt - now < (m + 1) * MillisPerMinute
  {
    FloorOfQuotient(url.expiresAt - now, MillisPerMinute);
    ((url.expiresAt - now) as real / (MillisPerMinute as real)).Floor
  }

  /** getStatusText at clock reading `now`: 'Expired', or a count of minutes
      or of hours left. */
  function StatusText(url: UrlData, now: Millis): (s: string)
    ensures s == "Expired" || EndsWith(s, "m left") || EndsWith(s, "h left")
  {
    if url.isExpired then "Expired"
    else
      var minutesLeft := MinutesLeft(url, now);
      if minutesLeft < 60 then
        var s := IntToDecimal(minutesLeft) + "m left";
        assert s[|s| - 6..] == "m left";
        s
      else
        var hoursLeft := (minutesLeft as real / 60.0).Floor;
        var s := IntToDecimal(hoursLeft) + "h left";
        assert s[|s| - 6..] == "h left";
        s
  }

  /** From one hour on, whole minutes turn into whole hours h with h hours
      <= time left < h + 1 hours. */
  lemma HoursFromMinutes(timeLeft: int, m: int)
    requires m * MillisPerMinute <= timeLeft < (m + 1) * MillisPerMinute
    requires m >= 60
    ensures 1 <= (m as real / 60.0).Floor
    ensures (m as real / 60.0).Floor * MillisPerHour <= timeLeft < ((m as real / 60.0).Floor + 1) * MillisPerHour
  {
    FloorOfQuotient(m, 60);
    var h := m / 60;
    assert h * 60 <= m < (h + 1) * 60;
    assert h * MillisPerHour == (h * 60) * MillisPerMinute;
    assert (h + 1) * MillisPerHour == ((h + 1) * 60) * MillisPerMinute;
  }

  /** The text is 'Expired' exactly for a record marked expired. Otherwise it
      counts the whole minutes left while fewer than 60 remain (a negative
      count once the expiry has passed unnoticed), and from one hour on the
      whole hours left, a count h with h hours <= time left < h + 1 hours. */
  lemma StatusTextCases(url: UrlData, now: Millis)
    ensures StatusText(url, now) == "Expired" <==> url.isExpired
    ensures !url.isExpired && url.expiresAt - now < MillisPerHour ==>
      StatusText(url, now) == IntToDecimal((url.expiresAt - now) / MillisPerMinute) + "m left"
    ensures !url.isExpired && url.expiresAt - now >= MillisPerHour ==>
      exists h: int {:trigger IntToDecimal(h)} ::
        && StatusText(url, now) == IntToDecimal(h) + "h left"
        && 1 <= h
        && h * MillisPerHour <= url.expiresAt - now < (h + 1) * MillisPerHour
  {
    if !url.isExpired {
      var s := StatusText(url, now);
      var m := MinutesLeft(url, now);
      assert s[|s| - 1] == 't';
      if url.expiresAt - now >= MillisPerHour {
        assert m >= 60;
        HoursFromMinutes(url.expiresAt - now, m);
        var h := (m as real / 60.0).Floor;
        assert s == IntToDecimal(h) + "h left";
      }
    }
  }

  /** The text is in minutes exactly when less than one hour is left at its
      reading. */
  lemma MinutesIffUnderAnHour(url: UrlData, now: Millis)
    requires !url.isExpired
    ensures EndsWith(StatusText(url, now), "m left") <==> url.expiresAt - now < MillisPerHour
  {
    var s := StatusText(url, now);
    var m := MinutesLeft(url, now);
    if m < 60 {
      assert s == IntToDecimal(m) + "m left";
    } else {
      var h := (m as real / 60.0).Floor;
      assert s == IntToDecimal(h) + "h left";
      assert s[|s| - 6] == 'h';
    }
  }

  /** The chip renders its text first and its colour after it, each at its own
      clock reading. For a record not marked expired, a text in minutes always
      comes with 'warning'; with one reading for both, the two one-hour
      thresholds agree exactly. */
  lemma WarningIffMinutes(url: UrlData, textNow: Millis, colorNow: Millis)
    requires !url.isExpired
    requires textNow <= colorNow
    ensures EndsWith(StatusText(url, textNow), "m left") ==> StatusColorOf(url, colorNow) == WarningColor
    ensures textNow == colorNow ==>
      (StatusColorOf(url, colorNow) == WarningColor <==> EndsWith(StatusText(url, textNow), "m left"))
  {
    MinutesIffUnderAnHour(url, textNow);
  }

  /** The converse fails across two readings: a record with exactly one hour
      left at the text's reading shows '1h left', and one millisecond later
      the colour is already 'warning'. */
  lemma SplitReadingsDisagree()
    ensures var url := UrlData("0", "http://a", "abc", ShortUrlPrefix + "abc", 0, MillisPerHour, [], false);
      StatusText(url, 0) == "1h left" && StatusColorOf(url, 1) == WarningColor
  {
    var url := UrlData("0", "http://a", "abc", ShortUrlPrefix + "abc", 0, MillisPerHour, [], false);
    assert MinutesLeft(url, 0) == 60;
    FloorOfQuotient(60, 60);
    assert IntToDecimal(1) == "1";
  }

  /** `expandedRows` with `id` deleted when present, added when absent. */
  function Toggled(rows: set<string>, id: string): (r: set<string>)
    ensures id in r <==> id !in rows
    ensures forall other :: other != id ==> (other in r <==> other in rows)
  {
    if id in rows then rows - {id} else rows + {id}
  }

  /** Toggling the same row twice restores the set. */
  lemma ToggleTwice(rows: set<string>, id: string)
    ensures Toggled(Toggled(rows, id), id) == rows
  {
    var once := Toggled(rows, id);
    var twice := Toggled(once, id);
    forall x
      ensures x in twice <==> x in rows
    {
      if x != id {
        assert x in twice <==> x in once;
      }
    }
  }

  /** The component's state: the loaded rows, the totals, and the ids of the
      rows whose click history is shown. */
  class Dashboard {
    var urls: seq<UrlData>
    var stats: Stats
    var expandedRows: set<string>

    /** The state the component mounts with. */
    constructor()
      ensures urls == [] && stats == Stats(0, 0, 0, 0) && expandedRows == {}
    {
      urls := [];
      stats := Stats(0, 0, 0, 0);
      expandedRows := {};
    }

    /** loadData: the rows and the totals, each from its own load of the store
        at its own clock reading. */
    method LoadData(store: UrlStore, listNow: Millis, statsNow: Millis)
      modifies this
      ensures urls == Refreshed(store.records, listNow)
      ensures stats == StatisticsOf(Refreshed(store.records, statsNow))
      ensures stats.activeUrls + stats.expiredUrls == stats.totalUrls == |urls|
      ensures expandedRows == old(expandedRows)
    {
      urls := store.GetAllUrls(listNow);
      stats := store.GetStatistics(statsNow);
    }

    /** toggleRowExpansion: flips whether `id` is expanded and leaves every
        other row as it was. */
    method ToggleRowExpansion(id: string)
      modifies this
      ensures expandedRows == Toggled(old(expandedRows), id)
      ensures id in expandedRows <==> id !in old(expandedRows)
      ensures urls == old(urls) && stats == old(stats)
    {
      var newExpanded := expandedRows;
      if id in newExpanded {
        newExpanded := newExpanded - {id};
      } else {
        newExpanded := newExpanded + {id};
      }
      expandedRows := newExpanded;
    }
  }
}

=== FILE: text.dfy ===
/** String helpers the JavaScript runtime provides: decimal rendering of
    integers (template literals, Number.prototype.toString), the value of an
    ASCII digit string, and the white space String.prototype.trim removes. */
module Text {

  predicate IsAsciiDigit(c: char) {
    '0' <= c <= '9'
  }

  /** A non-empty string of ASCII decimal digits. */
  predicate IsDecimalDigits(s: string) {
    |s| >= 1 && forall i :: 0 <= i < |s| ==> IsAsciiDigit(s[i])
  }

  function DigitChar(d: nat): (c: char)
    requires d < 10
    ensures IsAsciiDigit(c) && c as int - '0' as int == d
  {
    ('0' as int + d) as char
  }

  /** The number an ASCII digit string denotes, most significant digit first. */
  function DecimalValue(s: string): nat
    requires IsDecimalDigits(s) || s == []
  {
    if s == [] then 0
    else 10 * DecimalValue(s[..|s| - 1]) + (s[|s| - 1] as int - '0' as int)
  }

  /** `${n}` for a non-negative integer n. */
  function NatToDecimal(n: nat): (s: string)
    ensures IsDecimalDigits(s)
  {
    if n < 10 then [DigitChar(n)] else NatToDecimal(n / 10) + [DigitChar(n % 10)]
  }

  /** `${i}` for any integer i: a leading '-' for a negative one. */
  function IntToDecimal(i: int): (s: string)
    ensures |s| >= 1
    ensures s[0] == '-' <==> i < 0
    ensures i >= 0 ==> IsDecimalDigits(s)
    ensures i < 0 ==> IsDecimalDigits(s[1..])
  {
    if i < 0 then "-" + NatToDecimal(-i) else NatToDecimal(i)
  }

  /** Rendering a number and reading it back gives the number. */
  lemma {:induction false} DecimalRoundTrip(n: nat)
    ensures DecimalValue(NatToDecimal(n)) == n
  {
    if n >= 10 {
      var s := NatToDecimal(n);
      assert s[..|s| - 1] == NatToDecimal(n / 10);
      DecimalRoundTrip(n / 10);
    }
  }

  /** `${i}` reads back as i: the digits after an optional '-' denote |i|. */
  lemma IntDecimalRoundTrip(i: int)
    ensures i >= 0 ==> DecimalValue(IntToDecimal(i)) == i
    ensures i < 0 ==> DecimalValue(IntToDecimal(i)[1..]) == -i
  {
    if i >= 0 {
      DecimalRoundTrip(i);
    } else {
      assert IntToDecimal(i)[1..] == NatToDecimal(-i);
      DecimalRoundTrip(-i);
    }
  }

  /** The characters ECMAScript counts as WhiteSpace or LineTerminator, the
      ones String.prototype.trim strips. */
  predicate IsJsWhitespace(c: char) {
    var k := c as int;
    k == 0x09 || k == 0x0A || k == 0x0B || k == 0x0C || k == 0x0D || k == 0x20
    || k == 0xA0 || k == 0x1680 || (0x2000 <= k <= 0x200A) || k == 0x2028
    || k == 0x2029 || k == 0x202F || k == 0x205F || k == 0x3000 || k == 0xFEFF
  }

  /** `s.trim() === ''`, which is how the source tests for a blank field. */
  predicate IsBlank(s: string) {
    forall i :: 0 <= i < |s| ==> IsJsWhitespace(s[i])
  }

  /** String.prototype.trim: white space removed from both ends. */
  function Trim(s: string): (t: string)
    ensures |t| <= |s|
  {
    TrimEnd(TrimStart(s))
  }

  function TrimStart(s: string): (t: string)
    ensures |t| <= |s| && t == s[|s| - |t|..]
    ensures t != [] ==> !IsJsWhitespace(t[0])
  {
    if s != [] && IsJsWhitespace(s[0]) then TrimStart(s[1..]) else s
  }

  function TrimEnd(s: string): (t: string)
    ensures |t| <= |s| && t == s[..|t|]
    ensures t != [] ==> !IsJsWhitespace(t[|t| - 1])
  {
    if s != [] && IsJsWhitespace(s[|s| - 1]) then TrimEnd(s[..|s| - 1]) else s
  }

  /** A string is blank exactly when trimming leaves nothing. */
  lemma {:induction false} BlankIffTrimmedEmpty(s: string)
    ensures IsBlank(s) <==> Trim(s) == ""
  {
    var t := TrimStart(s);
    TrimStartBlank(s);
    TrimEndEmpty(t);
  }

  lemma {:induction false} TrimStartBlank(s: string)
    ensures IsBlank(s) <==> IsBlank(TrimStart(s))
  {
    if s != [] && IsJsWhitespace(s[0]) {
      TrimStartBlank(s[1..]);
      assert forall i :: 1 <= i < |s| ==> s[i] == s[1..][i - 1];
    }
  }

  lemma {:induction false} TrimEndEmpty(s: string)
    ensures IsBlank(s) <==> TrimEnd(s) == ""
  {
    if s != [] && IsJsWhitespace(s[|s| - 1]) {
      TrimEndEmpty(s[..|s| - 1]);
      assert forall i :: 0 <= i < |s| - 1 ==> s[i] == s[..|s| - 1][i];
    }
  }

  predicate StartsWith(s: string, prefix: string) {
    |prefix| <= |s| && s[..|prefix|] == prefix
  }

  predicate EndsWith(s: string, suffix: string) {
    |suffix| <= |s| && s[|s| - |suffix|..] == suffix
  }
}

=== FILE: types.dfy ===
/** The records the URL shortener stores and exchanges (src/types/index.ts).
    Dates are integer milliseconds since the epoch, the value of a JavaScript
    Date's getTime(). */
module Types {

  datatype Option<T> = None | Some(value: T)

  datatype Result<T, E> = Ok(value: T) | Err(error: E)

  /** JavaScript truthiness of an optional string: undefined, null and ""
      are falsy. */
  predicate Truthy(s: Option<string>) {
    s.Some? && s.value != ""
  }

  /** A point in time in milliseconds since the epoch. */
  type Millis = int

  const MillisPerMinute: int := 60 * 1000
  const MillisPerHour: int := 60 * 60 * 1000

  /** One recorded visit of a short URL. */
  datatype ClickData = ClickData(
    timestamp: Millis,
    source: string,
    userAgent: string,
    location: string)

  /** One short URL with its click log. `isExpired` is not authoritative in
      storage: every load recomputes it from `expiresAt`. */
  datatype UrlData = UrlData(
    id: string,
    originalUrl: string,
    shortCode: string,
    shortUrl: string,
    createdAt: Millis,
    expiresAt: Millis,
    clicks: seq<ClickData>,
    isExpired: bool)

  /** The argument of createShortUrl; `None` stands for an absent (undefined)
      optional property. */
  datatype CreateUrlRequest = CreateUrlRequest(
    originalUrl: string,
    customShortcode: Option<string>,
    validityMinutes: Option<int>)
}

=== FILE: url_service.dfy ===
/** The URL service (src/utils/urlService.ts): shortcode validation and
    generation, creation with collision checks, lookup, click recording and
    aggregate statistics over the array kept in the browser's storage slot.
    The slot is the field `records` of a UrlStore; every operation first loads
    it, which recomputes each record's isExpired against the current time. */
module UrlService {
  import opened Types
  import opened Text
  import opened Host

  const Alphabet: string := "abcdefghijklmnopqrstuvwxyzABCDEFGHIJKLMNOPQRSTUVWXYZ0123456789"
  const CodeLength: nat := 6
  const DefaultValidityMinutes: int := 30
  const ShortUrlPrefix: string := "http://localhost:3000/"
  const DirectSource: string := "Direct"
  const UnknownLocation: string := "Unknown"

  // ---------------------------------------------------------------------
  // Shortcodes

  predicate IsAlphanumeric(c: char) {
    'a' <= c <= 'z' || 'A' <= c <= 'Z' || '0' <= c <= '9'
  }

  /** The regular expression /^[a-zA-Z0-9]+$/: one character of the class,
      followed by the end of the string or by another match. */
  predicate MatchesAlphanumericRun(s: string)
    decreases |s|
  {
    |s| >= 1 && IsAlphanumeric(s[0]) && (|s| == 1 || MatchesAlphanumericRun(s[1..]))
  }

  /** isValidShortcode: the pattern matches and the length is 3 to 10. */
  predicate IsValidShortcode(s: string) {
    MatchesAlphanumericRun(s) && 3 <= |s| <= 10
  }

  lemma {:induction false} AlphanumericRunIff(s: string)
    ensures MatchesAlphanumericRun(s) <==> |s| >= 1 && forall i :: 0 <= i < |s| ==> IsAlphanumeric(s[i])
    decreases |s|
  {
    if |s| > 1 {
      AlphanumericRunIff(s[1..]);
      assert forall i :: 1 <= i < |s| ==> s[i] == s[1..][i - 1];
    }
  }

  /** A shortcode is valid exactly when it has 3 to 10 characters, each an
      ASCII letter or digit. */
  lemma ValidShortcodeIff(s: string)
    ensures IsValidShortcode(s) <==> 3 <= |s| <= 10 && forall i :: 0 <= i < |s| ==> IsAlphanumeric(s[i])
  {
    AlphanumericRunIff(s);
  }

  const LowerCaseLetters: string := seq(26, i requires 0 <= i < 26 => ('a' as int + i) as char)
  const UpperCaseLetters: string := seq(26, i requires 0 <= i < 26 => ('A' as int + i) as char)
  const DecimalDigits: string := seq(10, i requires 0 <= i < 10 => ('0' as int + i) as char)

  /** The generator's alphabet is the ASCII lower-case letters, then the
      upper-case letters, then the digits, each range in code-point order. */
  lemma AlphabetRanges()
    ensures Alphabet == LowerCaseLetters + UpperCaseLetters + DecimalDigits
  {
    assert LowerCaseLetters == "abcdefghijklmnopqrstuvwxyz";
  }

  lemma AlphabetIsAlphanumeric()
    ensures forall i :: 0 <= i < |Alphabet| ==> IsAlphanumeric(Alphabet[i])
  {
    AlphabetRanges();
    assert forall i :: 0 <= i < 26 ==> IsAlphanumeric(LowerCaseLetters[i]);
    assert forall i :: 0 <= i < 26 ==> IsAlphanumeric(UpperCaseLetters[i]);
    assert forall i :: 0 <= i < 10 ==> IsAlphanumeric(DecimalDigits[i]);
  }

  lemma AlphanumericInAlphabet(c: char)
    requires IsAlphanumeric(c)
    ensures c in Alphabet
  {
    AlphabetRanges();
    var all := LowerCaseLetters + UpperCaseLetters + DecimalDigits;
    if 'a' <= c <= 'z' {
      assert LowerCaseLetters[c as int - 'a' as int] == c;
    } else if 'A' <= c <= 'Z' {
      assert UpperCaseLetters[c as int - 'A' as int] == c;
      assert all[26 + c as int - 'A' as int] == c;
    } else {
      assert DecimalDigits[c as int - '0' as int] == c;
      assert all[52 + c as int - '0' as int] == c;
    }
  }

  /** The generator draws from exactly the characters the shortcode pattern
      accepts. */
  lemma AlphabetIsPatternClass(c: char)
    ensures c in Alphabet <==> IsAlphanumeric(c)
  {
    AlphabetIsAlphanumeric();
    if IsAlphanumeric(c) {
      AlphanumericInAlphabet(c);
    }
  }

  /** `chars.charAt(Math.floor(Math.random() * chars.length))`. */
  function PickChar(d: Draw): (c: char)
    ensures c in Alphabet && IsAlphanumeric(c)
  {
    var k := (d * (|Alphabet| as real)).Floor;
    AlphabetIsAlphanumeric();
    Alphabet[k]
  }

  /** The code the six draws of one generation attempt spell. */
  function CodeOf(draws: seq<Draw>): (code: string)
    requires |draws| == CodeLength
    ensures |code| == CodeLength && IsValidShortcode(code)
  {
    var code := seq(CodeLength, i requires 0 <= i < CodeLength => PickChar(draws[i]));
    ValidShortcodeIff(code);
    code
  }

  /** generateShortCode: appends one picked character per draw, six times. */
  method GenerateShortCode(draws: seq<Draw>) returns (code: string)
    requires |draws| >= CodeLength
    ensures |code| == CodeLength && forall i :: 0 <= i < |code| ==> code[i] in Alphabet
    ensures code == CodeOf(draws[..CodeLength])
  {
    code := "";
    for i := 0 to CodeLength
      invariant |code| == i
      invariant forall j :: 0 <= j < i ==> code[j] == PickChar(draws[j])
    {
      code := code + [PickChar(draws[i])];
    }
  }

  // ---------------------------------------------------------------------
  // Loading, searching

  /** getAllUrls: the stored array with every isExpired recomputed as
      `now > expiresAt`; nothing else changes. */
  function Refreshed(rs: seq<UrlData>, now: Millis): (r: seq<UrlData>)
    ensures |r| == |rs|
    ensures forall i :: 0 <= i < |rs| ==>
      r[i].(isExpired := rs[i].isExpired) == rs[i] && (r[i].isExpired <==> now > rs[i].expiresAt)
  {
    seq(|rs|, i requires 0 <= i < |rs| => rs[i].(isExpired := now > rs[i].expiresAt))
  }

  /** Loading twice keeps only the later clock reading: isExpired is derived
      at read time, never a stored state. */
  lemma RefreshedTwice(rs: seq<UrlData>, t1: Millis, t2: Millis)
    ensures Refreshed(Refreshed(rs, t1), t2) == Refreshed(rs, t2)
  {
  }

  /** `urls.some(url => url.shortCode === code)`. */
  predicate HasCode(rs: seq<UrlData>, code: string) {
    exists i :: 0 <= i < |rs| && rs[i].shortCode == code
  }

  /** Index i holds the first record with the given code. */
  predicate IsFirstMatch(rs: seq<UrlData>, code: string, i: int) {
    0 <= i < |rs| && rs[i].shortCode == code
    && forall j :: 0 <= j < i ==> rs[j].shortCode != code
  }

  /** The invariant the store keeps: no two records share a shortcode. */
  predicate DistinctCodes(rs: seq<UrlData>) {
    forall i, j :: 0 <= i < j < |rs| ==> rs[i].shortCode != rs[j].shortCode
  }

  /** `urls.findIndex(u => u.shortCode === code)`, with None for -1. */
  function FindIndex(rs: seq<UrlData>, code: string): (r: Option<nat>)
    ensures r.None? <==> !HasCode(rs, code)
    ensures r.Some? ==> IsFirstMatch(rs, code, r.value)
    decreases |rs|
  {
    if rs == [] then None
    else if rs[0].shortCode == code then Some(0)
    else match FindIndex(rs[1..], code)
      case None => None
      case Some(k) => Some(k + 1)
  }

  /** Loading does not move records or change codes, so it finds the same index. */
  lemma FindIndexRefreshed(rs: seq<UrlData>, code: string, now: Millis)
    ensures FindIndex(Refreshed(rs, now), code) == FindIndex(rs, code)
  {
    var r := Refreshed(rs, now);
    assert forall i :: 0 <= i < |rs| ==> r[i].shortCode == rs[i].shortCode;
    match FindIndex(rs, code)
    case None =>
    case Some(i) =>
      assert IsFirstMatch(r, code, i);
      var k := FindIndex(r, code).value;
      assert IsFirstMatch(rs, code, k);
  }

  lemma FindIndexUnique(rs: seq<UrlData>, code: string, i: int, k: int)
    requires IsFirstMatch(rs, code, i) && IsFirstMatch(rs, code, k)
    ensures i == k
  {
  }

  /** getUrlByShortCode over stored records: the first record with the code,
      as loaded at `now`, or None when no record has it. */
  function LookUp(rs: seq<UrlData>, code: string, now: Millis): (r: Option<UrlData>)
    ensures r.None? <==> !HasCode(rs, code)
    ensures r.Some? ==> exists i :: (IsFirstMatch(rs, code, i)
      && r.value == rs[i].(isExpired := now > rs[i].expiresAt))
  {
    FindIndexRefreshed(rs, code, now);
    var urls := Refreshed(rs, now);
    match FindIndex(urls, code)
    case None => None
    case Some(i) => Some(urls[i])
  }

  // ---------------------------------------------------------------------
  // Creation

  datatype CreateError = InvalidUrl | InvalidShortcode | DuplicateShortcode | CodesExhausted

  /** The message of the Error that createShortUrl throws. */
  function Message(e: CreateError): (m: string)
    ensures m != ""
  {
    match e
    case InvalidUrl => "Invalid URL format"
    case InvalidShortcode => "Shortcode must be 3-10 alphanumeric characters"
    case DuplicateShortcode => "Shortcode already exists"
    case CodesExhausted => "No unused shortcode could be generated"
  }

  /** Each error has its own message, so the text shown names the error. */
  lemma MessageNamesError(e1: CreateError, e2: CreateError)
    requires Message(e1) == Message(e2)
    ensures e1 == e2
  {
  }

  /** A custom code is used only when it is present and non-empty (truthy). */
  predicate HasCustomCode(req: CreateUrlRequest) {
    Truthy(req.customShortcode)
  }

  /** `request.validityMinutes || 30`: absent and 0 both give 30. */
  function ValidityOf(v: Option<int>): (minutes: int)
    ensures minutes != 0
    ensures v.Some? && v.value != 0 ==> minutes == v.value
    ensures v.None? || v == Some(0) ==> minutes == DefaultValidityMinutes
  {
    if v.None? || v.value == 0 then DefaultValidityMinutes else v.value
  }

  /** The do-while retry loop: the first generated code that no loaded record
      has, with the draws left after it. None when fewer than six draws remain
      before a fresh code turns up. */
  function FreshCode(existing: seq<UrlData>, draws: seq<Draw>): (r: Option<(string, seq<Draw>)>)
    ensures r.Some? ==> IsValidShortcode(r.value.0) && |r.value.0| == CodeLength
    ensures r.Some? ==> !HasCode(existing, r.value.0)
    ensures r.Some? ==> |r.value.1| + CodeLength <= |draws|
    ensures r.Some? ==> r.value.1 == draws[|draws| - |r.value.1|..]
    decreases |draws|
  {
    if |draws| < CodeLength then None
    else
      var code := CodeOf(draws[..CodeLength]);
      if HasCode(existing, code) then FreshCode(existing, draws[CodeLength..])
      else Some((code, draws[CodeLength..]))
  }

  /** The record createShortUrl builds once a code is settled. The id is the
      decimal text of the clock reading. */
  function NewRecord(req: CreateUrlRequest, code: string, now: Millis): (u: UrlData)
    ensures u.shortCode == code && u.originalUrl == req.originalUrl
    ensures u.id == IntToDecimal(u.createdAt) && u.shortUrl == ShortUrlPrefix + u.shortCode
    ensures u.createdAt == now && u.expiresAt - u.createdAt == ValidityOf(req.validityMinutes) * MillisPerMinute
    ensures u.clicks == [] && !u.isExpired
  {
    UrlData(IntToDecimal(now), req.originalUrl, code, ShortUrlPrefix + code, now,
            now + ValidityOf(req.validityMinutes) * MillisPerMinute, [], false)
  }

  /** createShortUrl over the loaded records: the created record or the
      error thrown, and the draws left unused. */
  function CreateOutcome(existing: seq<UrlData>, req: CreateUrlRequest, now: Millis,
                         isValidUrl: UrlSyntax, draws: seq<Draw>): (r: (Result<UrlData, CreateError>, seq<Draw>))
    ensures r.0.Ok? ==> IsValidShortcode(r.0.value.shortCode) && !HasCode(existing, r.0.value.shortCode)
    ensures r.0.Ok? ==> isValidUrl(r.0.value.originalUrl)
    ensures |r.1| <= |draws|
  {
    if !isValidUrl(req.originalUrl) then (Err(InvalidUrl), draws)
    else if HasCustomCode(req) then
      var code := req.customShortcode.value;
      if !IsValidShortcode(code) then (Err(InvalidShortcode), draws)
      else if HasCode(existing, code) then (Err(DuplicateShortcode), draws)
      else (Ok(NewRecord(req, code, now)), draws)
    else
      match FreshCode(existing, draws)
      case None => (Err(CodesExhausted), [])
      case Some((code, rest)) => (Ok(NewRecord(req, code, now)), rest)
  }

  /** The three thrown errors, in the order the source checks them. */
  lemma CreateErrors(existing: seq<UrlData>, req: CreateUrlRequest, now: Millis,
                     isValidUrl: UrlSyntax, draws: seq<Draw>)
    ensures var r := CreateOutcome(existing, req, now, isValidUrl, draws).0;
      && (r == Err(InvalidUrl) <==> !isValidUrl(req.originalUrl))
      && (r == Err(InvalidShortcode) <==>
            isValidUrl(req.originalUrl) && HasCustomCode(req) && !IsValidShortcode(req.customShortcode.value))
      && (r == Err(DuplicateShortcode) <==>
            isValidUrl(req.originalUrl) && HasCustomCode(req) && IsValidShortcode(req.customShortcode.value)
            && HasCode(existing, req.customShortcode.value))
      && (r == Err(CodesExhausted) <==>
            isValidUrl(req.originalUrl) && !HasCustomCode(req) && FreshCode(existing, draws).None?)
  {
  }

  /** What a successful create returns: a record with a valid code that no
      loaded record has (the custom one when given), no clicks, not expired,
      expiring exactly the effective validity after creation. */
  lemma CreateSuccess(existing: seq<UrlData>, req: CreateUrlRequest, now: Millis,
                      isValidUrl: UrlSyntax, draws: seq<Draw>)
    requires CreateOutcome(existing, req, now, isValidUrl, draws).0.Ok?
    ensures var u := CreateOutcome(existing, req, now, isValidUrl, draws).0.value;
      && isValidUrl(req.originalUrl) && u.originalUrl == req.originalUrl
      && IsValidShortcode(u.shortCode) && !HasCode(existing, u.shortCode)
      && (HasCustomCode(req) ==> u.shortCode == req.customShortcode.value)
      && (!HasCustomCode(req) ==> |u.shortCode| == CodeLength)
      && u.shortUrl == ShortUrlPrefix + u.shortCode
      && u.clicks == [] && !u.isExpired && u.createdAt == now
      && u.expiresAt == now + ValidityOf(req.validityMinutes) * MillisPerMinute
  {
  }

  /** A create that succeeds keeps the shortcodes pairwise distinct. */
  lemma CreateKeepsCodesDistinct(rs: seq<UrlData>, req: CreateUrlRequest, now: Millis,
                                 isValidUrl: UrlSyntax, draws: seq<Draw>)
    requires DistinctCodes(rs)
    requires CreateOutcome(Refreshed(rs, now), req, now, isValidUrl, draws).0.Ok?
    ensures DistinctCodes(Refreshed(rs, now) + [CreateOutcome(Refreshed(rs, now), req, now, isValidUrl, draws).0.value])
  {
    var existing := Refreshed(rs, now);
    var u := CreateOutcome(existing, req, now, isValidUrl, draws).0.value;
    CreateSuccess(existing, req, now, isValidUrl, draws);
    var all := existing + [u];
    forall i, j | 0 <= i < j < |all|
      ensures all[i].shortCode != all[j].shortCode
    {
      if j == |existing| {
        assert all[i] == existing[i];
      } else {
        assert all[i].shortCode == rs[i].shortCode && all[j].shortCode == rs[j].shortCode;
      }
    }
  }

  /** A validity of at least one minute makes the new record live at its
      creation and expired strictly after validity minutes. */
  lemma ExpiryScenario(req: CreateUrlRequest, code: string, now: Millis, later: Millis)
    requires ValidityOf(req.validityMinutes) >= 1
    ensures !Refreshed([NewRecord(req, code, now)], now)[0].isExpired
    ensures later > now + ValidityOf(req.validityMinutes) * MillisPerMinute ==>
      Refreshed([NewRecord(req, code, now)], later)[0].isExpired
    ensures later <= now + ValidityOf(req.validityMinutes) * MillisPerMinute ==>
      !Refreshed([NewRecord(req, code, now)], later)[0].isExpired
  {
  }

  /** The service itself takes any validity: the expiry lies after the
      creation time exactly when the effective validity is positive, so a
      negative one passed by a caller other than the form gives a record that
      is already expired. */
  lemma ExpiresAfterCreationIff(req: CreateUrlRequest, code: string, now: Millis)
    ensures NewRecord(req, code, now).createdAt < NewRecord(req, code, now).expiresAt <==>
      ValidityOf(req.validityMinutes) > 0
    ensures ValidityOf(req.validityMinutes) != 0
  {
  }

  // ---------------------------------------------------------------------
  // Clicks

  /** The click recordClick logs; the location is a fixed placeholder and an
      empty referrer counts as a direct visit. */
  function NewClick(now: Millis, referrer: string, userAgent: string): (c: ClickData)
    ensures c.timestamp == now && c.userAgent == userAgent && c.location == UnknownLocation
    ensures c.source != ""
    ensures c.source == referrer <==> referrer != ""
  {
    ClickData(now, if referrer == "" then DirectSource else referrer, userAgent, UnknownLocation)
  }

  /** recordClick succeeds exactly when some record has the code and the first
      such record has not expired: `now > expiresAt` rejects, so a click at the
      expiry instant itself is accepted. */
  predicate ClickAccepted(rs: seq<UrlData>, code: string, now: Millis)
    ensures ClickAccepted(rs, code, now) <==>
      exists i :: IsFirstMatch(rs, code, i) && now <= rs[i].expiresAt
  {
    var i := FindIndex(rs, code);
    i.Some? && now <= rs[i.value].expiresAt
  }

  /** `urls[i].clicks.push(click)`: only record i changes, and in it only
      the click list, which gains exactly that click at its end. */
  function WithClick(rs: seq<UrlData>, i: nat, c: ClickData): (r: seq<UrlData>)
    requires i < |rs|
    ensures |r| == |rs|
    ensures r[i].clicks == rs[i].clicks + [c]
    ensures r[i].(clicks := rs[i].clicks) == rs[i]
    ensures forall j :: 0 <= j < |rs| && j != i ==> r[j] == rs[j]
  {
    rs[i := rs[i].(clicks := rs[i].clicks + [c])]
  }

  /** A click never touches a shortcode, so the store invariant survives it. */
  lemma WithClickKeepsCodesDistinct(rs: seq<UrlData>, i: nat, c: ClickData, now: Millis)
    requires i < |rs| && DistinctCodes(rs)
    ensures DistinctCodes(WithClick(Refreshed(rs, now), i, c))
  {
    var r := WithClick(Refreshed(rs, now), i, c);
    assert forall k :: 0 <= k < |rs| ==> r[k].shortCode == rs[k].shortCode;
  }

  // ---------------------------------------------------------------------
  // Statistics

  datatype Stats = Stats(totalUrls: int, totalClicks: int, activeUrls: int, expiredUrls: int)

  /** `urls.reduce((sum, url) => sum + url.clicks.length, 0)`. */
  function TotalClicks(rs: seq<UrlData>): nat {
    if rs == [] then 0 else TotalClicks(rs[..|rs| - 1]) + |rs[|rs| - 1].clicks|
  }

  /** `urls.filter(url => !url.isExpired)`. */
  function Unexpired(rs: seq<UrlData>): seq<UrlData> {
    if rs == [] then []
    else Unexpired(rs[..|rs| - 1]) + if rs[|rs| - 1].isExpired then [] else [rs[|rs| - 1]]
  }

  /** The complementary filter: the records marked expired. */
  function Expired(rs: seq<UrlData>): seq<UrlData> {
    if rs == [] then []
    else Expired(rs[..|rs| - 1]) + if rs[|rs| - 1].isExpired then [rs[|rs| - 1]] else []
  }

  /** Every record is either active or expired, never both. */
  lemma {:induction false} ActiveExpiredPartition(rs: seq<UrlData>)
    ensures |Unexpired(rs)| + |Expired(rs)| == |rs|
    ensures forall u :: u in Unexpired(rs) ==> u in rs && !u.isExpired
    ensures forall u :: u in Expired(rs) ==> u in rs && u.isExpired
  {
    if rs != [] {
      ActiveExpiredPartition(rs[..|rs| - 1]);
    }
  }

  /** getStatistics over loaded records: expiredUrls is computed as
      `totalUrls - activeUrls`, and it is exactly the number of records marked
      expired. */
  function StatisticsOf(urls: seq<UrlData>): (s: Stats)
    ensures s.totalUrls == |urls| && s.totalClicks == TotalClicks(urls)
    ensures 0 <= s.activeUrls <= s.totalUrls && s.activeUrls + s.expiredUrls == s.totalUrls
    ensures s.activeUrls == |Unexpired(urls)| && s.expiredUrls == |Expired(urls)|
  {
    ActiveExpiredPartition(urls);
    var total := |urls|;
    var active := |Unexpired(urls)|;
    Stats(total, TotalClicks(urls), active, total - active)
  }

  /** The number of records whose expiry is not before `now`. */
  function LiveCount(rs: seq<UrlData>, now: Millis): nat {
    if rs == [] then 0
    else LiveCount(rs[..|rs| - 1], now) + if now > rs[|rs| - 1].expiresAt then 0 else 1
  }

  lemma RefreshedPrefix(rs: seq<UrlData>, now: Millis)
    requires rs != []
    ensures Refreshed(rs, now)[..|rs| - 1] == Refreshed(rs[..|rs| - 1], now)
  {
  }

  /** Loading leaves every click list as it is and marks active exactly the
      records whose expiry is not before the load time. */
  lemma {:induction false} LoadedCounts(rs: seq<UrlData>, now: Millis)
    ensures TotalClicks(Refreshed(rs, now)) == TotalClicks(rs)
    ensures |Unexpired(Refreshed(rs, now))| == LiveCount(rs, now)
  {
    if rs != [] {
      RefreshedPrefix(rs, now);
      LoadedCounts(rs[..|rs| - 1], now);
    }
  }

  lemma AppendCounts(rs: seq<UrlData>, u: UrlData, now: Millis)
    ensures TotalClicks(rs + [u]) == TotalClicks(rs) + |u.clicks|
    ensures LiveCount(rs + [u], now) == LiveCount(rs, now) + if now > u.expiresAt then 0 else 1
  {
    assert (rs + [u])[..|rs|] == rs;
  }

  /** Appending a click adds one to the click total and leaves every expiry
      as it was. */
  lemma {:induction false} WithClickCounts(rs: seq<UrlData>, i: nat, c: ClickData, now: Millis)
    requires i < |rs|
    ensures TotalClicks(WithClick(rs, i, c)) == TotalClicks(rs) + 1
    ensures LiveCount(WithClick(rs, i, c), now) == LiveCount(rs, now)
  {
    var r := WithClick(rs, i, c);
    var n := |rs| - 1;
    if i == n {
      assert r[..n] == rs[..n];
    } else {
      assert r[..n] == WithClick(rs[..n], i, c);
      WithClickCounts(rs[..n], i, c, now);
    }
  }

  // ---------------------------------------------------------------------
  // The store

  /** The storage slot, read and rewritten whole by each operation. */
  class UrlStore {
    var records: seq<UrlData>

    /** An empty slot loads as no records. */
    constructor()
      ensures records == []
    {
      records := [];
    }

    /** getAllUrls. */
    function GetAllUrls(now: Millis): (r: seq<UrlData>)
      reads this
      ensures |r| == |records|
      ensures forall i :: 0 <= i < |r| ==>
        r[i].(isExpired := records[i].isExpired) == records[i] && (r[i].isExpired <==> now > r[i].expiresAt)
    {
      Refreshed(records, now)
    }

    /** getUrlByShortCode, reading the slot. */
    function GetUrlByShortCode(code: string, now: Millis): (r: Option<UrlData>)
      reads this
      ensures r.None? <==> !HasCode(records, code)
      ensures r.Some? ==> exists i :: (IsFirstMatch(records, code, i)
        && r.value == records[i].(isExpired := now > records[i].expiresAt))
    {
      LookUp(records, code, now)
    }

    /** createShortUrl. The URL is checked before anything is loaded; every
        rejection leaves the slot as it was; a success saves the loaded
        records with the new one appended and returns that record. */
    method CreateShortUrl(req: CreateUrlRequest, now: Millis, isValidUrl: UrlSyntax, draws: seq<Draw>)
      returns (r: Result<UrlData, CreateError>, unused: seq<Draw>)
      modifies this
      ensures (r, unused) == CreateOutcome(Refreshed(old(records), now), req, now, isValidUrl, draws)
      ensures records == if r.Ok? then Refreshed(old(records), now) + [r.value] else old(records)
      ensures old(DistinctCodes(records)) ==> DistinctCodes(records)
    {
      if !isValidUrl(req.originalUrl) {
        return Err(InvalidUrl), draws;
      }
      var existing := GetAllUrls(now);
      var code: string;
      unused := draws;
      if HasCustomCode(req) {
        code := req.customShortcode.value;
        if !IsValidShortcode(code) {
          return Err(InvalidShortcode), draws;
        }
        if HasCode(existing, code) {
          return Err(DuplicateShortcode), draws;
        }
      } else {
        if |unused| < CodeLength {
          return Err(CodesExhausted), [];
        }
        code := GenerateShortCode(unused);
        unused := unused[CodeLength..];
        while HasCode(existing, code)
          invariant records == old(records)
          invariant FreshCode(existing, draws) ==
            if HasCode(existing, code) then FreshCode(existing, unused) else Some((code, unused))
          decreases |unused|
        {
          if |unused| < CodeLength {
            return Err(CodesExhausted), [];
          }
          code := GenerateShortCode(unused);
          unused := unused[CodeLength..];
        }
        assert FreshCode(existing, draws) == Some((code, unused));
      }
      var u := NewRecord(req, code, now);
      if DistinctCodes(records) {
        CreateKeepsCodesDistinct(records, req, now, isValidUrl, draws);
      }
      records := existing + [u];
      r := Ok(u);
    }

    /** recordClick: rejected with nothing saved when no record has the code
        or the first one has expired; otherwise the loaded records are saved
        with exactly one click appended to that record. */
    method RecordClick(code: string, now: Millis, referrer: string, userAgent: string) returns (ok: bool)
      modifies this
      ensures ok == ClickAccepted(old(records), code, now)
      ensures !ok ==> records == old(records)
      ensures ok ==> records == WithClick(Refreshed(old(records), now), FindIndex(old(records), code).value,
                                          NewClick(now, referrer, userAgent))
      ensures old(DistinctCodes(records)) ==> DistinctCodes(records)
    {
      var urls := GetAllUrls(now);
      FindIndexRefreshed(records, code, now);
      var found := FindIndex(urls, code);
      if found.None? {
        return false;
      }
      var i := found.value;
      if now > urls[i].expiresAt {
        return false;
      }
      if DistinctCodes(records) {
        WithClickKeepsCodesDistinct(records, i, NewClick(now, referrer, userAgent), now);
      }
      records := WithClick(urls, i, NewClick(now, referrer, userAgent));
      ok := true;
    }

    /** getStatistics, from a load at `now`: record and click totals, and the
        records still live at `now` against those past their expiry. */
    function GetStatistics(now: Millis): (s: Stats)
      reads this
      ensures s.totalUrls == |records| && s.totalClicks == TotalClicks(records)
      ensures s.activeUrls == LiveCount(records, now)
      ensures s.activeUrls + s.expiredUrls == s.totalUrls && s.expiredUrls >= 0
    {
      LoadedCounts(records, now);
      StatisticsOf(GetAllUrls(now))
    }
  }

  /** The statistics after a successful create at the same instant: one more
      record, and one more active one when the validity is positive; the click
      total is unchanged. */
  lemma StatsAfterCreate(rs: seq<UrlData>, u: UrlData, now: Millis)
    requires u.clicks == []
    ensures var before := StatisticsOf(Refreshed(rs, now));
            var after := StatisticsOf(Refreshed(Refreshed(rs, now) + [u], now));
      && after.totalUrls == before.totalUrls + 1
      && after.totalClicks == before.totalClicks
      && after.activeUrls == before.activeUrls + (if now > u.expiresAt then 0 else 1)
  {
    RefreshedTwice(rs, now, now);
    var loaded := Refreshed(rs, now);
    LoadedCounts(rs, now);
    LoadedCounts(loaded + [u], now);
    LoadedCounts(loaded, now);
    AppendCounts(loaded, u, now);
    assert LiveCount(loaded, now) == LiveCount(rs, now) by {
      LoadedCounts(loaded, now);
      RefreshedTwice(rs, now, now);
    }
  }

  /** The statistics after an accepted click at the same instant: one more
      click, the same records and the same active count. */
  lemma StatsAfterClick(rs: seq<UrlData>, i: nat, c: ClickData, now: Millis)
    requires i < |rs|
    ensures var before := StatisticsOf(Refreshed(rs, now));
            var after := StatisticsOf(Refreshed(WithClick(Refreshed(rs, now), i, c), now));
      && after.totalUrls == before.totalUrls
      && after.totalClicks == before.totalClicks + 1
      && after.activeUrls == before.activeUrls
  {
    var loaded := Refreshed(rs, now);
    LoadedCounts(rs, now);
    LoadedCounts(loaded, now);
    RefreshedTwice(rs, now, now);
    WithClickCounts(loaded, i, c, now);
    LoadedCounts(WithClick(loaded, i, c), now);
  }
}

=== FILE: url_shortener.dfy ===
/** The creation form (src/components/UrlShortener.tsx): up to five URL forms,
    per-form validation, and a submit loop that turns every non-blank form
    into exactly one created record or one error message. */
module UrlShortener {
  import opened Types
  import opened Text
  import opened Host
  import opened UrlService

  const MaxForms: nat := 5

  const UrlRequired: string := "URL is required"
  const InvalidUrlFormat: string := "Invalid URL format"
  const InvalidShortcodeFormat: string := "Shortcode must be 3-10 alphanumeric characters"
  const InvalidValidity: string := "Validity must be a positive integer"

  /** One form; every field holds the text typed into it. */
  datatype UrlForm = UrlForm(originalUrl: string, customShortcode: string, validityMinutes: string)

  datatype FormField = OriginalUrl | CustomShortcode | ValidityMinutes

  const EmptyForm: UrlForm := UrlForm("", "", "")

  function FieldOf(form: UrlForm, field: FormField): string {
    match field
    case OriginalUrl => form.originalUrl
    case CustomShortcode => form.customShortcode
    case ValidityMinutes => form.validityMinutes
  }

  /** `{ ...form, [field]: value }`: sets that field and no other. */
  function WithField(form: UrlForm, field: FormField, value: string): (r: UrlForm)
    ensures FieldOf(r, field) == value
    ensures forall other :: other != field ==> FieldOf(r, other) == FieldOf(form, other)
  {
    match field
    case OriginalUrl => form.(originalUrl := value)
    case CustomShortcode => form.(customShortcode := value)
    case ValidityMinutes => form.(validityMinutes := value)
  }

  /** `forms.filter((_, i) => i !== index)`. */
  function WithoutIndex(forms: seq<UrlForm>, index: int): (r: seq<UrlForm>)
    ensures |r| == if 0 <= index < |forms| then |forms| - 1 else |forms|
  {
    if forms == [] then []
    else WithoutIndex(forms[..|forms| - 1], index)
         + if |forms| - 1 == index then [] else [forms[|forms| - 1]]
  }

  /** Removing a form drops exactly the form at that index and keeps the rest
      in order; an index that names no form changes nothing. */
  lemma {:induction false} WithoutIndexDropsOne(forms: seq<UrlForm>, index: int)
    ensures 0 <= index < |forms| ==> WithoutIndex(forms, index) == forms[..index] + forms[index + 1..]
    ensures !(0 <= index < |forms|) ==> WithoutIndex(forms, index) == forms
  {
    if forms != [] {
      var n := |forms| - 1;
      WithoutIndexDropsOne(forms[..n], index);
      if index == n {
        assert forms[..index] + forms[index + 1..] == forms[..n];
      } else if 0 <= index < n {
        assert forms[..n][..index] + forms[..n][index + 1..] + [forms[n]] == forms[..index] + forms[index + 1..];
      } else {
        assert forms[..n] + [forms[n]] == forms;
      }
    }
  }

  /** validateForm: the first failing check, in the source's order, or None. */
  function ValidateForm(form: UrlForm, js: Builtins): (r: Option<string>)
    ensures r.Some? ==> r.value in {UrlRequired, InvalidUrlFormat, InvalidShortcodeFormat, InvalidValidity}
    ensures r.None? ==> !IsBlank(form.originalUrl) && js.isValidUrl(form.originalUrl)
  {
    if IsBlank(form.originalUrl) then Some(UrlRequired)
    else if !js.isValidUrl(form.originalUrl) then Some(InvalidUrlFormat)
    else if form.customShortcode != "" && !IsValidShortcode(form.customShortcode) then Some(InvalidShortcodeFormat)
    else if form.validityMinutes != "" && !js.isPositiveInteger(form.validityMinutes) then Some(InvalidValidity)
    else None
  }

  /** Each message is returned exactly when its check fails and every earlier
      one passes. */
  lemma ValidateFormOrder(form: UrlForm, js: Builtins)
    ensures ValidateForm(form, js) == Some(UrlRequired) <==> IsBlank(form.originalUrl)
    ensures ValidateForm(form, js) == Some(InvalidUrlFormat) <==>
      !IsBlank(form.originalUrl) && !js.isValidUrl(form.originalUrl)
    ensures ValidateForm(form, js) == Some(InvalidShortcodeFormat) <==>
      js.isValidUrl(form.originalUrl) && !IsBlank(form.originalUrl)
      && form.customShortcode != "" && !IsValidShortcode(form.customShortcode)
    ensures ValidateForm(form, js) == Some(InvalidValidity) <==>
      js.isValidUrl(form.originalUrl) && !IsBlank(form.originalUrl)
      && (form.customShortcode == "" || IsValidShortcode(form.customShortcode))
      && form.validityMinutes != "" && !js.isPositiveInteger(form.validityMinutes)
    ensures ValidateForm(form, js).None? <==>
      js.isValidUrl(form.originalUrl)
      && (form.customShortcode == "" || IsValidShortcode(form.customShortcode))
      && (form.validityMinutes == "" || js.isPositiveInteger(form.validityMinutes))
  {
    if js.isValidUrl(form.originalUrl) {
      ValidUrlIsNotBlank(js.isValidUrl, form.originalUrl);
    }
  }

  /** The request handleSubmit builds: an empty shortcode or validity field is
      passed as undefined, a non-empty validity through parseInt. */
  function RequestOf(form: UrlForm, js: Builtins): (r: CreateUrlRequest)
    ensures r.originalUrl == form.originalUrl
    ensures HasCustomCode(r) <==> form.customShortcode != ""
    ensures r.validityMinutes.None? <==> form.validityMinutes == ""
  {
    CreateUrlRequest(
      form.originalUrl,
      if form.customShortcode == "" then None else Some(form.customShortcode),
      if form.validityMinutes == "" then None else Some(js.parseInt(form.validityMinutes)))
  }

  /** A form that passed validation is not rejected by the service for its URL
      or for its shortcode's format (a duplicate custom code still is); an
      empty shortcode means a generated one, an empty validity means 30
      minutes, and a digit string with a safe value means that value. */
  lemma ValidatedRequest(form: UrlForm, js: Builtins, existing: seq<UrlData>, now: Millis, draws: seq<Draw>)
    requires ValidateForm(form, js).None?
    ensures var r := CreateOutcome(existing, RequestOf(form, js), now, js.isValidUrl, draws).0;
      r != Err(InvalidUrl) && r != Err(InvalidShortcode)
    ensures form.customShortcode == "" <==> !HasCustomCode(RequestOf(form, js))
    ensures form.validityMinutes == "" ==> ValidityOf(RequestOf(form, js).validityMinutes) == DefaultValidityMinutes
    ensures IsSafeDigits(form.validityMinutes) ==>
      ValidityOf(RequestOf(form, js).validityMinutes) == DecimalValue(form.validityMinutes) > 0
  {
    ValidateFormOrder(form, js);
  }

  /** The loop's running state: the error messages and created records so far,
      the storage slot, and the random draws not yet used. */
  datatype Batch = Batch(errors: seq<string>, results: seq<UrlData>, records: seq<UrlData>, draws: seq<Draw>)

  /** `Form ${i + 1}: `, the head of every message about form number i. */
  function FormPrefix(i: nat): string {
    "Form " + NatToDecimal(i + 1) + ": "
  }

  /** `Form ${i + 1}: ${message}`. */
  function FormError(i: nat, message: string): (e: string)
    ensures StartsWith(e, FormPrefix(i)) && e[|FormPrefix(i)|..] == message
  {
    FormPrefix(i) + message
  }

  /** Of two heads of the same message, the one with fewer digits has as
      many digits as the other, and the same ones: otherwise its ':' would
      face a digit of the other. */
  lemma SameHeadDigits(e: string, i: nat, j: nat)
    requires StartsWith(e, FormPrefix(i)) && StartsWith(e, FormPrefix(j))
    requires |NatToDecimal(i + 1)| <= |NatToDecimal(j + 1)|
    ensures NatToDecimal(i + 1) == NatToDecimal(j + 1)
  {
    var d1, d2 := NatToDecimal(i + 1), NatToDecimal(j + 1);
    var p, q := FormPrefix(i), FormPrefix(j);
    assert p == "Form " + d1 + ": " && q == "Form " + d2 + ": ";
    assert e[5 + |d1|] == p[5 + |d1|] == ':';
    assert forall m :: 5 <= m < 5 + |d2| ==> e[m] == d2[m - 5] && IsAsciiDigit(e[m]);
    assert d1 == p[5..5 + |d1|] == e[5..5 + |d1|] == q[5..5 + |d2|] == d2;
  }

  /** A message's head names one form only: no two different heads
      `Form {i + 1}: ` start the same message. */
  lemma FormPrefixUnique(e: string, i: nat, j: nat)
    requires StartsWith(e, FormPrefix(i)) && StartsWith(e, FormPrefix(j))
    ensures i == j
  {
    if |NatToDecimal(i + 1)| <= |NatToDecimal(j + 1)| {
      SameHeadDigits(e, i, j);
    } else {
      SameHeadDigits(e, j, i);
    }
    DecimalRoundTrip(i + 1);
    DecimalRoundTrip(j + 1);
  }

  /** One turn of the loop, for form number i: blank forms are skipped, a
      validation failure or a thrown error adds one message, a created record
      is added to the results. */
  function SubmitStep(b: Batch, form: UrlForm, i: nat, now: Millis, js: Builtins): (r: Batch)
    ensures IsBlank(form.originalUrl) ==> r == b
    ensures !IsBlank(form.originalUrl) && ValidateForm(form, js).Some? ==>
      r == b.(errors := b.errors + [FormError(i, ValidateForm(form, js).value)])
    ensures |r.draws| <= |b.draws|
  {
    if IsBlank(form.originalUrl) then b
    else match ValidateForm(form, js)
      case Some(m) => b.(errors := b.errors + [FormError(i, m)])
      case None =>
        var (r, rest) := CreateOutcome(Refreshed(b.records, now), RequestOf(form, js), now, js.isValidUrl, b.draws);
        match r
        case Ok(u) => Batch(b.errors, b.results + [u], Refreshed(b.records, now) + [u], rest)
        case Err(e) => Batch(b.errors + [FormError(i, Message(e))], b.results, b.records, rest)
  }

  /** From b to r one message headed `Form ${i + 1}: ` was added, and
      nothing else was shown. */
  predicate AddedError(b: Batch, r: Batch, i: nat) {
    && r.results == b.results
    && |r.errors| == |b.errors| + 1 && r.errors[..|b.errors|] == b.errors
    && StartsWith(r.errors[|b.errors|], FormPrefix(i))
  }

  /** From b to r one record for `form`'s URL was added to the results, and
      nothing else was shown. */
  predicate AddedResult(b: Batch, r: Batch, form: UrlForm) {
    && r.errors == b.errors
    && |r.results| == |b.results| + 1 && r.results[..|b.results|] == b.results
    && r.results[|b.results|].originalUrl == form.originalUrl
  }

  /** A non-blank form adds exactly one entry: a message prefixed with its
      number, or a record of its URL. */
  lemma SubmitStepOutcome(b: Batch, form: UrlForm, i: nat, now: Millis, js: Builtins)
    requires !IsBlank(form.originalUrl)
    ensures AddedError(b, SubmitStep(b, form, i, now, js), i) || AddedResult(b, SubmitStep(b, form, i, now, js), form)
  {
    var r := SubmitStep(b, form, i, now, js);
    match ValidateForm(form, js)
    case Some(m) =>
      assert r.errors[|b.errors|] == FormError(i, m);
    case None =>
      var (c, rest) := CreateOutcome(Refreshed(b.records, now), RequestOf(form, js), now, js.isValidUrl, b.draws);
      match c
      case Ok(u) =>
        CreateSuccess(Refreshed(b.records, now), RequestOf(form, js), now, js.isValidUrl, b.draws);
        assert r.results == b.results + [u];
      case Err(e) =>
        assert r.errors[|b.errors|] == FormError(i, Message(e));
  }

  /** The loop over the first n forms. */
  function SubmitForms(forms: seq<UrlForm>, n: nat, start: Batch, now: Millis, js: Builtins): (r: Batch)
    requires n <= |forms|
    ensures |r.draws| <= |start.draws|
  {
    if n == 0 then start
    else SubmitStep(SubmitForms(forms, n - 1, start, now, js), forms[n - 1], n - 1, now, js)
  }

  /** The number of forms among the first n whose URL is not blank. */
  function NonBlankCount(forms: seq<UrlForm>, n: nat): nat
    requires n <= |forms|
  {
    if n == 0 then 0
    else NonBlankCount(forms, n - 1) + if IsBlank(forms[n - 1].originalUrl) then 0 else 1
  }

  /** The numbers, in order, of the forms among the first n that added a
      record to the results. */
  function ResultForms(forms: seq<UrlForm>, n: nat, start: Batch, now: Millis, js: Builtins): seq<nat>
    requires n <= |forms|
  {
    if n == 0 then []
    else
      ResultForms(forms, n - 1, start, now, js)
      + if |SubmitForms(forms, n, start, now, js).results| > |SubmitForms(forms, n - 1, start, now, js).results|
        then [n - 1] else []
  }

  /** The numbers, in order, of the forms among the first n that added an
      error message. */
  function ErrorForms(forms: seq<UrlForm>, n: nat, start: Batch, now: Millis, js: Builtins): seq<nat>
    requires n <= |forms|
  {
    if n == 0 then []
    else
      ErrorForms(forms, n - 1, start, now, js)
      + if |SubmitForms(forms, n, start, now, js).errors| > |SubmitForms(forms, n - 1, start, now, js).errors|
        then [n - 1] else []
  }

  predicate Ascending(xs: seq<nat>) {
    forall j, k :: 0 <= j < k < |xs| ==> xs[j] < xs[k]
  }

  /** xs lists, in ascending order, numbers of non-blank forms among the
      first n. */
  predicate FormNumbers(forms: seq<UrlForm>, n: nat, xs: seq<nat>)
    requires n <= |forms|
  {
    && Ascending(xs)
    && forall j :: 0 <= j < |xs| ==> xs[j] < n && !IsBlank(forms[xs[j]].originalUrl)
  }

  /** `results` is `start` followed by one record per number in rf, the j-th
      of them a record of form rf[j]'s URL. */
  predicate ResultsOf(forms: seq<UrlForm>, n: nat, start: seq<UrlData>, results: seq<UrlData>, rf: seq<nat>)
    requires n <= |forms|
  {
    && FormNumbers(forms, n, rf)
    && |results| == |start| + |rf| && results[..|start|] == start
    && forall j :: 0 <= j < |rf| ==> results[|start| + j].originalUrl == forms[rf[j]].originalUrl
  }

  /** `errors` is `start` followed by one message per number in ef, the j-th
      of them prefixed with form ef[j]'s number. */
  predicate ErrorsOf(forms: seq<UrlForm>, n: nat, start: seq<string>, errors: seq<string>, ef: seq<nat>)
    requires n <= |forms|
  {
    && FormNumbers(forms, n, ef)
    && |errors| == |start| + |ef| && errors[..|start|] == start
    && forall j :: 0 <= j < |ef| ==> StartsWith(errors[|start| + j], FormPrefix(ef[j]))
  }

  /** Every non-blank form among the first n is in exactly one of rf and ef. */
  predicate Partition(forms: seq<UrlForm>, n: nat, rf: seq<nat>, ef: seq<nat>)
    requires n <= |forms|
  {
    && |rf| + |ef| == NonBlankCount(forms, n)
    && forall k :: 0 <= k < n && !IsBlank(forms[k].originalUrl) ==> (k in rf <==> k !in ef)
  }

  /** What the batch b shows beyond `start` after the first n forms, given the
      numbers rf of the forms that added results and ef of those that added
      errors. */
  predicate Entries(forms: seq<UrlForm>, n: nat, start: Batch, b: Batch, rf: seq<nat>, ef: seq<nat>)
    requires n <= |forms|
  {
    && ResultsOf(forms, n, start.results, b.results, rf)
    && ErrorsOf(forms, n, start.errors, b.errors, ef)
    && Partition(forms, n, rf, ef)
  }

  /** Form numbers below n stay below n + 1, and n is not among them. */
  lemma FormNumbersMore(forms: seq<UrlForm>, n: nat, xs: seq<nat>)
    requires n < |forms| && FormNumbers(forms, n, xs)
    ensures FormNumbers(forms, n + 1, xs) && n !in xs
  {
  }

  lemma FormNumbersAppend(forms: seq<UrlForm>, n: nat, xs: seq<nat>)
    requires n < |forms| && !IsBlank(forms[n].originalUrl) && FormNumbers(forms, n, xs)
    ensures FormNumbers(forms, n + 1, xs + [n])
  {
    var ys := xs + [n];
    forall j, k | 0 <= j < k < |ys|
      ensures ys[j] < ys[k]
    {
      if k < |xs| {
        assert ys[j] == xs[j] && ys[k] == xs[k];
      } else {
        assert ys[j] == xs[j];
      }
    }
  }

  lemma ResultsOfAppend(forms: seq<UrlForm>, n: nat, start: seq<UrlData>, results: seq<UrlData>, rf: seq<nat>, u: UrlData)
    requires n < |forms| && !IsBlank(forms[n].originalUrl)
    requires ResultsOf(forms, n, start, results, rf)
    requires u.originalUrl == forms[n].originalUrl
    ensures ResultsOf(forms, n + 1, start, results + [u], rf + [n])
  {
    FormNumbersAppend(forms, n, rf);
    var results', rf' := results + [u], rf + [n];
    assert results'[..|start|] == results[..|start|];
    forall j | 0 <= j < |rf'|
      ensures results'[|start| + j].originalUrl == forms[rf'[j]].originalUrl
    {
      if j < |rf| {
        assert rf'[j] == rf[j] && results'[|start| + j] == results[|start| + j];
      }
    }
  }

  lemma ErrorsOfAppend(forms: seq<UrlForm>, n: nat, start: seq<string>, errors: seq<string>, ef: seq<nat>, e: string)
    requires n < |forms| && !IsBlank(forms[n].originalUrl)
    requires ErrorsOf(forms, n, start, errors, ef)
    requires StartsWith(e, FormPrefix(n))
    ensures ErrorsOf(forms, n + 1, start, errors + [e], ef + [n])
  {
    FormNumbersAppend(forms, n, ef);
    var errors', ef' := errors + [e], ef + [n];
    assert errors'[..|start|] == errors[..|start|];
    forall j | 0 <= j < |ef'|
      ensures StartsWith(errors'[|start| + j], FormPrefix(ef'[j]))
    {
      if j < |ef| {
        assert ef'[j] == ef[j] && errors'[|start| + j] == errors[|start| + j];
      }
    }
  }

  /** A blank form n joins neither list; a non-blank one joins exactly one. */
  lemma PartitionStep(forms: seq<UrlForm>, n: nat, rf: seq<nat>, ef: seq<nat>)
    requires n < |forms|
    requires Partition(forms, n, rf, ef) && FormNumbers(forms, n, rf) && FormNumbers(forms, n, ef)
    ensures IsBlank(forms[n].originalUrl) ==> Partition(forms, n + 1, rf, ef)
    ensures !IsBlank(forms[n].originalUrl) ==>
      Partition(forms, n + 1, rf + [n], ef) && Partition(forms, n + 1, rf, ef + [n])
  {
    FormNumbersMore(forms, n, rf);
    FormNumbersMore(forms, n, ef);
  }

  /** One more form keeps Entries, whichever of its outcomes happened: its
      number joins the list of the entry it added, if any. */
  lemma EntriesStep(forms: seq<UrlForm>, i: nat, start: Batch, b: Batch, r: Batch, rf: seq<nat>, ef: seq<nat>)
    requires i < |forms| && Entries(forms, i, start, b, rf, ef)
    requires IsBlank(forms[i].originalUrl) ==> r == b
    requires !IsBlank(forms[i].originalUrl) ==> AddedError(b, r, i) || AddedResult(b, r, forms[i])
    ensures Entries(forms, i + 1, start, r,
                    rf + (if |r.results| > |b.results| then [i] else []),
                    ef + (if |r.errors| > |b.errors| then [i] else []))
  {
    PartitionStep(forms, i, rf, ef);
    FormNumbersMore(forms, i, rf);
    FormNumbersMore(forms, i, ef);
    if IsBlank(forms[i].originalUrl) {
      assert rf + [] == rf && ef + [] == ef;
    } else if AddedError(b, r, i) {
      assert r.errors == b.errors + [r.errors[|b.errors|]];
      ErrorsOfAppend(forms, i, start.errors, b.errors, ef, r.errors[|b.errors|]);
      assert rf + [] == rf;
    } else {
      assert r.results == b.results + [r.results[|b.results|]];
      ResultsOfAppend(forms, i, start.results, b.results, rf, r.results[|b.results|]);
      assert ef + [] == ef;
    }
  }

  /** Every non-blank form adds exactly one entry, an error or a result, and
      no failure stops the forms after it: the entries of earlier forms stay,
      the new ones come in form order, each result holds its form's URL and
      each message carries its form's number. */
  lemma {:induction false} SubmitAccounts(forms: seq<UrlForm>, n: nat, start: Batch, now: Millis, js: Builtins)
    requires n <= |forms|
    ensures Entries(forms, n, start, SubmitForms(forms, n, start, now, js),
                    ResultForms(forms, n, start, now, js), ErrorForms(forms, n, start, now, js))
  {
    if n > 0 {
      SubmitAccounts(forms, n - 1, start, now, js);
      var b := SubmitForms(forms, n - 1, start, now, js);
      if !IsBlank(forms[n - 1].originalUrl) {
        SubmitStepOutcome(b, forms[n - 1], n - 1, now, js);
      }
      EntriesStep(forms, n - 1, start, b, SubmitForms(forms, n, start, now, js),
                  ResultForms(forms, n - 1, start, now, js), ErrorForms(forms, n - 1, start, now, js));
    }
  }

  function Codes(rs: seq<UrlData>): seq<string> {
    seq(|rs|, i requires 0 <= i < |rs| => rs[i].shortCode)
  }

  lemma CodesAppend(xs: seq<UrlData>, ys: seq<UrlData>)
    ensures Codes(xs + ys) == Codes(xs) + Codes(ys)
  {
  }

  /** The codes of a sequence from k on, split where a prefix of it ends. */
  lemma CodesOfLaterPart(longer: seq<UrlData>, prefix: seq<UrlData>, k: nat)
    requires k <= |prefix| <= |longer| && longer[..|prefix|] == prefix
    ensures Codes(longer[k..]) == Codes(prefix[k..]) + Codes(longer[|prefix|..])
  {
    assert longer[k..] == prefix[k..] + longer[|prefix|..];
    CodesAppend(prefix[k..], longer[|prefix|..]);
  }

  /** One turn of the loop adds to the slot exactly the record it adds to the
      results, and keeps the slot's codes distinct. */
  lemma SlotStep(b: Batch, form: UrlForm, i: nat, now: Millis, js: Builtins)
    ensures SlotGrew(b, SubmitStep(b, form, i, now, js))
    ensures DistinctCodes(b.records) ==> DistinctCodes(SubmitStep(b, form, i, now, js).records)
  {
    if !IsBlank(form.originalUrl) && ValidateForm(form, js).None? {
      var (r, rest) := CreateOutcome(Refreshed(b.records, now), RequestOf(form, js), now, js.isValidUrl, b.draws);
      if r.Ok? {
        var nb := Batch(b.errors, b.results + [r.value], Refreshed(b.records, now) + [r.value], rest);
        assert SubmitStep(b, form, i, now, js) == nb;
        assert nb.results[|b.results|..] == [r.value];
        assert Codes(Refreshed(b.records, now)) == Codes(b.records);
        CodesAppend(Refreshed(b.records, now), [r.value]);
        if DistinctCodes(b.records) {
          CreateKeepsCodesDistinct(b.records, RequestOf(form, js), now, js.isValidUrl, b.draws);
        }
      }
    }
  }

  /** From `start` to `b` the results only grew, and the slot gained exactly
      the codes of the new results, in order. */
  predicate SlotGrew(start: Batch, b: Batch) {
    && |start.results| <= |b.results| && b.results[..|start.results|] == start.results
    && Codes(b.records) == Codes(start.records) + Codes(b.results[|start.results|..])
  }

  lemma SlotGrewTransitive(a: Batch, b: Batch, c: Batch)
    requires SlotGrew(a, b) && SlotGrew(b, c)
    ensures SlotGrew(a, c)
  {
    assert c.results[..|b.results|][..|a.results|] == c.results[..|a.results|];
    CodesOfLaterPart(c.results, b.results, |a.results|);
  }

  /** The slot gains exactly the created records, in form order, and keeps its
      codes distinct. */
  lemma {:induction false} SubmitSlot(forms: seq<UrlForm>, n: nat, start: Batch, now: Millis, js: Builtins)
    requires n <= |forms|
    ensures SlotGrew(start, SubmitForms(forms, n, start, now, js))
    ensures DistinctCodes(start.records) ==> DistinctCodes(SubmitForms(forms, n, start, now, js).records)
  {
    if n > 0 {
      var b := SubmitForms(forms, n - 1, start, now, js);
      var r := SubmitStep(b, forms[n - 1], n - 1, now, js);
      assert SubmitForms(forms, n, start, now, js) == r;
      SubmitSlot(forms, n - 1, start, now, js);
      SlotStep(b, forms[n - 1], n - 1, now, js);
      SlotGrewTransitive(start, b, r);
    }
  }

  /** Every result has no clicks, and those from index `from` on are new
      records: a valid code, created at `now`, not expired. */
  predicate FreshFrom(results: seq<UrlData>, from: nat, now: Millis) {
    forall k :: 0 <= k < |results| ==>
      (results[k].clicks == []
       && (k >= from ==>
             (IsValidShortcode(results[k].shortCode) && results[k].createdAt == now && !results[k].isExpired)))
  }

  /** One turn of the loop keeps the results fresh from `from` on. */
  lemma FreshStep(b: Batch, form: UrlForm, i: nat, now: Millis, js: Builtins, from: nat)
    requires FreshFrom(b.results, from, now) && from <= |b.results|
    ensures FreshFrom(SubmitStep(b, form, i, now, js).results, from, now)
  {
    if !IsBlank(form.originalUrl) && ValidateForm(form, js).None? {
      var r := CreateOutcome(Refreshed(b.records, now), RequestOf(form, js), now, js.isValidUrl, b.draws).0;
      if r.Ok? {
        CreateSuccess(Refreshed(b.records, now), RequestOf(form, js), now, js.isValidUrl, b.draws);
        assert SubmitStep(b, form, i, now, js).results == b.results + [r.value];
      }
    }
  }

  /** Every created record of a batch is new: valid code, no clicks, created
      at the batch's instant. */
  lemma {:induction false} SubmitResultsFresh(forms: seq<UrlForm>, n: nat, start: Batch, now: Millis, js: Builtins)
    requires n <= |forms|
    requires FreshFrom(start.results, |start.results|, now)
    ensures FreshFrom(SubmitForms(forms, n, start, now, js).results, |start.results|, now)
  {
    if n > 0 {
      SubmitResultsFresh(forms, n - 1, start, now, js);
      SubmitSlot(forms, n - 1, start, now, js);
      FreshStep(SubmitForms(forms, n - 1, start, now, js), forms[n - 1], n - 1, now, js, |start.results|);
    }
  }

  /** The component's state. */
  class Shortener {
    var forms: seq<UrlForm>
    var results: seq<UrlData>
    var loading: bool
    var errors: seq<string>

    /** At most five forms are ever shown. */
    ghost predicate Valid()
      reads this
    {
      |forms| <= MaxForms
    }

    /** The component mounts with one empty form. */
    constructor()
      ensures Valid()
      ensures forms == [EmptyForm] && results == [] && !loading && errors == []
    {
      forms := [EmptyForm];
      results := [];
      loading := false;
      errors := [];
    }

    /** addForm: one more empty form, only while fewer than five exist. */
    method AddForm()
      modifies this
      ensures forms == if |old(forms)| < MaxForms then old(forms) + [EmptyForm] else old(forms)
      ensures results == old(results) && errors == old(errors) && loading == old(loading)
      ensures old(Valid()) ==> Valid()
    {
      if |forms| < MaxForms {
        forms := forms + [EmptyForm];
      }
    }

    /** removeForm. */
    method RemoveForm(index: int)
      modifies this
      ensures forms == WithoutIndex(old(forms), index)
      ensures 0 <= index < |old(forms)| ==> |forms| == |old(forms)| - 1
      ensures results == old(results) && errors == old(errors) && loading == old(loading)
      ensures old(Valid()) ==> Valid()
    {
      WithoutIndexDropsOne(forms, index);
      forms := WithoutIndex(forms, index);
    }

    /** updateForm: a copy of the list with one field of one form replaced.
        The view only passes indices of forms it displays. */
    method UpdateForm(index: nat, field: FormField, value: string)
      requires index < |forms|
      modifies this
      ensures |forms| == |old(forms)|
      ensures forms[index] == WithField(old(forms)[index], field, value)
      ensures forall k :: 0 <= k < |forms| && k != index ==> forms[k] == old(forms)[k]
      ensures results == old(results) && errors == old(errors) && loading == old(loading)
      ensures old(Valid()) ==> Valid()
    {
      var newForms := forms;
      newForms := newForms[index := WithField(newForms[index], field, value)];
      forms := newForms;
    }

    /** handleSubmit: the loop over all forms, then the collected errors and
        results are shown and loading ends. */
    method HandleSubmit(store: UrlStore, now: Millis, js: Builtins, draws: seq<Draw>) returns (unused: seq<Draw>)
      modifies this, store
      ensures var b := SubmitForms(old(forms), |old(forms)|, Batch([], [], old(store.records), draws), now, js);
        && errors == b.errors && results == b.results && store.records == b.records && unused == b.draws
      ensures forms == old(forms) && !loading
      ensures |errors| + |results| == NonBlankCount(forms, |forms|)
      ensures FreshFrom(results, 0, now)
      ensures DistinctCodes(old(store.records)) ==> DistinctCodes(store.records)
    {
      loading := true;
      errors := [];
      results := [];
      var newErrors: seq<string> := [];
      var newResults: seq<UrlData> := [];
      unused := draws;
      ghost var start := Batch([], [], store.records, draws);
      for i := 0 to |forms|
        invariant forms == old(forms)
        invariant Batch(newErrors, newResults, store.records, unused) == SubmitForms(forms, i, start, now, js)
      {
        var form := forms[i];
        if IsBlank(form.originalUrl) {
          continue;
        }
        var validationError := ValidateForm(form, js);
        if validationError.Some? {
          newErrors := newErrors + [FormError(i, validationError.value)];
          continue;
        }
        var r, rest := store.CreateShortUrl(RequestOf(form, js), now, js.isValidUrl, unused);
        unused := rest;
        match r {
          case Ok(u) => newResults := newResults + [u];
          case Err(e) => newErrors := newErrors + [FormError(i, Message(e))];
        }
      }
      SubmitAccounts(forms, |forms|, start, now, js);
      SubmitSlot(forms, |forms|, start, now, js);
      SubmitResultsFresh(forms, |forms|, start, now, js);
      errors := newErrors;
      results := newResults;
      loading := false;
    }
  }
}
